=== FILE: README.md ===
# Strategy order bookkeeping and rebalancing, modelled in Dafny

This project models the core of `jaqs/trade/strategy.py` from JAQS, a Python 2
quantitative-trading framework:

- the order bookkeeping of `Strategy`: minting task ids and entrust numbers
  (`_get_next_num`), registering and sending single orders (`place_order`) and
  batches (`place_batch_order`), cancelling every order of a task
  (`cancel_order`), and turning goal positions into a batch of delta orders
  (`goal_portfolio`);
- the rebalancing pipeline of `AlphaStrategy`: parameter validation
  (`_validate_parameters`), the weighting variants (`equal_weight`,
  `factor_value_weight`, the Monte-Carlo search `optimize_mc` over
  `util_net_revenue`), the clean-up in `portfolio_construction`, the suspension
  reweighting (`re_weight_suspension`) and the translation of weights into goal
  positions (`generate_weights_order`).

The strategy's mutable attributes become an immutable `TaskOrders.State`
threaded through pure functions: the trade date and universe, the per-key
sequence counters, the task map (task id to entrust numbers) and an event log.
The log records, in order, every order handed to the portfolio manager
(`Registered`) and every call made to the gateway (`Sent`). The gateway is an
oracle `Gateway = (nat, GatewayCall) -> string`: its reply may depend on the
call and on the call's position in the log, and every property holds for every
gateway. Python dicts are insertion-ordered association lists
(`Dicts.Dict<V> = seq<(Symbol, V)>`). Floats are reals, and `NaN` is a separate
`Num` case where the code tests for it. Exceptions are `PyBase.Result` errors
that name the Python exception and carry its message.

Modules, in dependency order: `PyBase` (options, results, `','.join`,
decimal text of ids, Python 2 `round`), `Dicts`, `SequenceIds`, `TaskOrders`,
`TaskOrderFacts` (lemmas relating several calls), `GoalSubmit`,
`PortfolioWeights`, `WeightOptimizer`, `Construction`, `WeightOrders`.

Three behaviours of the code that the model keeps as written:
- `re_weight_suspension` tests each weight value, not its symbol, against the
  list of suspended symbols (jaqs/trade/strategy.py:543), so no weight is zeroed;
- lot counts use Python 2 `round`, which sends halves away from zero
  (jaqs/trade/strategy.py:606);
- `generate_weights_order` sets the goal of a traded symbol to its lot count
  (jaqs/trade/strategy.py:616), while suspended goals are share counts.

The first and last are also listed under Findings.

## Model

| member | source | states |
|---|---|---|
| PyBase.Round | jaqs/trade/strategy.py:606 | Python 2 `round(x, 0)`: the result is within one half of x, and halves go away from zero |
| PyBase.RoundIsNearest | jaqs/trade/strategy.py:606 | no integer is closer to x than the rounded value |
| PyBase.NatToStringRoundTrip | jaqs/trade/strategy.py:74-76 | the decimal text of an id reads back as the same number, so `str` keeps ids distinct |
| PyBase.RoundIsOdd | jaqs/trade/strategy.py:606 | rounding is symmetric: a negative value rounds to minus the rounding of its magnitude |
| PyBase.JoinLength | jaqs/trade/strategy.py:184 | a joined message is as long as its parts plus one separator between each pair |
| PyBase.JoinOfEmpties | jaqs/trade/strategy.py:184 | joining N > 0 empty messages with commas gives N-1 commas |
| PyBase.JoinEmptyOnlyIfPartsEmpty | jaqs/trade/strategy.py:147 | a joined message with a non-empty part is non-empty |
| Dicts.FromPairs | jaqs/trade/strategy.py:514 | a dict built from (key, value) pairs has distinct keys, exactly the keys of the pairs, and only entries taken from the pairs |
| Dicts.FromPairsLastWins | jaqs/trade/strategy.py:514 | for a repeated key the dict keeps the value paired with it last |
| Dicts.AbsSumNormalised | jaqs/trade/strategy.py:450-452 | dividing every value by a positive absolute sum makes the absolute sum exactly 1 |
| SequenceIds.GetNext | jaqs/trade/strategy.py:76 | the key's counter advances by one and its new value is returned; other keys are untouched |
| SequenceIds.NextNum | jaqs/trade/strategy.py:74-76 | the minted id is trade_date * 10000 + the key's new counter, always positive |
| SequenceIds.NextNums | jaqs/trade/strategy.py:74-76 | n successive mints give the n consecutive ids after the counter, in order |
| SequenceIds.FreshGeneratorIds | jaqs/trade/strategy.py:74-76 | a fresh generator mints trade_date * 10000 + 1, + 2, … for n successive calls on one key |
| SequenceIds.IdDecodes | jaqs/trade/strategy.py:76 | with a counter below 10000, the id divided by 10000 is the trade date and the remainder is the counter |
| SequenceIds.IdInjective | jaqs/trade/strategy.py:76 | with counters below 10000, equal ids mean equal date and counter |
| SequenceIds.IdOverflowCollides | jaqs/trade/strategy.py:76 | the 10001st id of a date equals the first id of the next date |
| TaskOrders.Initial | jaqs/trade/strategy.py:42-52 | a new strategy has empty counters, task map and log, and is well formed |
| TaskOrders.PlaceOrder | jaqs/trade/strategy.py:78-120 | a non-empty algo raises NotImplementedError before any id is minted; otherwise one task id and one entrust number are minted and no other counter moves, the entrust number is appended under the task id, the order is registered and then sent, and the reply is ('0', error) on a gateway error and (task id, '') otherwise |
| TaskOrders.SubmitEach | jaqs/trade/strategy.py:172-182 | the batch loop mints one entrust number per order in input order, registers then sends each order, records the numbers under the task, and collects the gateway's replies |
| TaskOrders.SubmitOne | jaqs/trade/strategy.py:175-182 | one pass of the batch loop: the next entrust number, the stamped order registered and then sent, the gateway's reply to that send, the number appended under the task |
| TaskOrders.PlaceBatchOrder | jaqs/trade/strategy.py:151-184 | one task id per batch, N consecutive entrust numbers recorded under it (no entry when N = 0), no other counter moved, each order registered then sent, and the message is every reply joined with commas |
| TaskOrders.CancelOrder | jaqs/trade/strategy.py:122-149 | an unknown task gives (False, "No task id <id>") with no gateway call; otherwise one cancel per entrust number in order, success exactly when every reply is empty, the joined replies otherwise; counters and task map never change |
| TaskOrderFacts.BatchEventsAt | jaqs/trade/strategy.py:175-179 | in a batch's log the i-th order is registered immediately before it is sent |
| TaskOrderFacts.BatchRepliesAt | jaqs/trade/strategy.py:179-180 | the i-th message of a batch is the gateway's reply to the i-th order |
| TaskOrderFacts.PlaceOrderKeepsWellFormed | jaqs/trade/strategy.py:107-111 | after `place_order` every recorded id is still one the counters have minted |
| TaskOrderFacts.PlaceBatchKeepsWellFormed | jaqs/trade/strategy.py:170-182 | the same holds after `place_batch_order` |
| TaskOrderFacts.BatchOpensFreshTask | jaqs/trade/strategy.py:170-182 | a non-empty batch opens a task id not used before, with exactly N strictly increasing entrust numbers, all newer than every earlier one |
| TaskOrderFacts.EmptyBatchLeavesNoTask | jaqs/trade/strategy.py:170-184 | an empty batch still mints a task id but records nothing, so cancelling that id fails |
| TaskOrderFacts.BatchAcceptedMessageIsCommas | jaqs/trade/strategy.py:184 | when the gateway accepts all N > 0 orders the message is N-1 commas, not empty |
| TaskOrderFacts.ErrorSummary | jaqs/trade/strategy.py:146-149 | the cancel-style summary is empty exactly when every reply is empty, and is otherwise the joined replies |
| TaskOrderFacts.PlaceBatchOrderIntended | jaqs/trade/strategy.py:151-184 | the batch with a cancel-style summary has the same state and task id, and its message is empty exactly when every order was accepted |
| TaskOrderFacts.BatchAcceptedMessageIsEmpty | jaqs/trade/strategy.py:184 | with that summary a fully accepted batch reports the empty message |
| TaskOrderFacts.RejectedOrderCannotBeCancelled | jaqs/trade/strategy.py:107-140 | a rejected order returns task id '0' yet stays registered and recorded under its real task id; cancelling '0' fails with "No task id 0" and calls nothing |
| TaskOrderFacts.AcceptedOrderCancelsItsEntrust | jaqs/trade/strategy.py:107-145 | cancelling the task of an accepted order sends exactly one cancel, for that order's entrust number |
| TaskOrderFacts.CancelFailureHasMessage | jaqs/trade/strategy.py:138-149 | a failed cancellation always carries a non-empty message |
| TaskOrderFacts.CancelIsRepeatable | jaqs/trade/strategy.py:138-145 | cancelling never changes the task map, so a second cancel sends the same cancels again |
| GoalSubmit.DeltaOrder | jaqs/trade/strategy.py:221-232 | no order when the goal equals the held size (0 when not held); otherwise one order for the symbol, BUY exactly when the goal exceeds the held size, of size goal - held for a BUY and held - goal for a SELL, price 0.0, price target 'vwap' |
| GoalSubmit.DiffOrders | jaqs/trade/strategy.py:219-233 | exactly as many orders as unmet goals |
| GoalSubmit.NoOrdersExactlyWhenMet | jaqs/trade/strategy.py:219-233 | no order at all exactly when every goal equals its held size |
| GoalSubmit.DiffOrdersInGoalOrder | jaqs/trade/strategy.py:219-233 | the order of an unmet goal is that goal's delta order, and it comes right after the orders of the unmet goals before it, so the orders follow goal order |
| GoalSubmit.GoalPortfolio | jaqs/trade/strategy.py:199-234 | AssertionError exactly when the number of goals differs from the number of universe symbols (which symbols they name is not checked); otherwise the delta orders go out as one batch, minting one task id even when there are none and one entrust number per order, and moving no other counter |
| GoalSubmit.DiffOrdersSymbols | jaqs/trade/strategy.py:220-233 | every delta order is for a symbol among the goals |
| GoalSubmit.DiffOrdersLocal | jaqs/trade/strategy.py:222-226 | the deltas read only the held sizes of the goals' own symbols |
| GoalSubmit.DiffOrdersReachGoals | jaqs/trade/strategy.py:219-233 | filling every delta order in full brings each goal symbol exactly to its goal size, when no symbol has two goals |
| PortfolioWeights.ZeroNaN | jaqs/trade/strategy.py:442 | same keys; NaN becomes 0.0 and every other value is kept |
| PortfolioWeights.SelectFilter | jaqs/trade/strategy.py:445-447 | same keys; without a selector nothing changes, with one the unselected values become 0.0 |
| PortfolioWeights.Rescale | jaqs/trade/strategy.py:450-452 | same keys; unchanged when the absolute sum is at most the floor; otherwise every value divided by the absolute sum, which makes the absolute sum 1; signs and order of values kept |
| PortfolioWeights.Finalize | jaqs/trade/strategy.py:442-452 | the clean-up keeps the keys; NaN and unselected entries become 0; the cleaned weights are returned as they are when their absolute sum is at most 1e-8, and otherwise each is divided by that sum, giving absolute sum 1; kept entries keep their sign and equal entries stay equal |
| PortfolioWeights.EqualWeight | jaqs/trade/strategy.py:456-459 | weight 1.0 for exactly the universe symbols, each once |
| PortfolioWeights.MinValue | jaqs/trade/strategy.py:476 | the least value of a non-empty dict |
| PortfolioWeights.LongOnlyAdjust | jaqs/trade/strategy.py:462-481 | an empty dict raises ValueError; otherwise same keys and same differences between values; unchanged when nothing is negative; when the minimum m is negative every value is shifted up by -2m, leaving all strictly positive |
| PortfolioWeights.FactorValueWeight | jaqs/trade/strategy.py:461-486 | an error exactly when the forecast is empty; otherwise the forecast's keys, none negative: each value is the forecast (NaN as 0), shifted up by twice the magnitude of the least such value when that is negative |
| PortfolioWeights.ValidateParameters | jaqs/trade/strategy.py:363-373 | accepted exactly for 'mc'/'quad_opt' with at least one model, 'factor_value_weight' with a revenue model, or 'equal_weight'; NotImplementedError with "pc_method = <method>" exactly for an unknown method; every other rejection is a ValueError, with the "At least one model …" message for 'mc'/'quad_opt' and the "revenue_model must be provided …" message for 'factor_value_weight' |
| PortfolioWeights.ReWeightSuspension | jaqs/trade/strategy.py:526-548 | no suspensions leave the weights alone; as many suspensions as universe symbols raise ValueError; otherwise same keys and signs, each weight divided by the absolute sum when it is positive (absolute sum 1), or all-zero weights left unchanged |
| PortfolioWeights.ReWeightSuspensionIntended | jaqs/trade/strategy.py:526-548 | with the symbol test intended: suspended symbols get 0, every other weight is divided by the absolute sum of the unsuspended weights when that is positive, and the absolute sum is 1 unless all are 0 |
| PortfolioWeights.SuspendedWeightSurvives | jaqs/trade/strategy.py:543 | for weights A 0.5, B 0.5 with A suspended, as written A keeps 0.5; intended, A gets 0.0 and B 1.0 |
| WeightOptimizer.CandidateWeights | jaqs/trade/strategy.py:514 | a candidate row becomes a dict with distinct keys, exactly the universe symbols, each mapped to the row entry at its last position in the universe |
| WeightOptimizer.OptimizeMc | jaqs/trade/strategy.py:488-524 | None with the "No weights can make f > 1.00e+30 …" message exactly when every candidate's negated utility is at least 1e30; otherwise the candidate of highest utility, the earliest on ties, and an empty message |
| WeightOptimizer.FirstMinimumBelow | jaqs/trade/strategy.py:511-518 | the scan keeps the first least value below the bound; it finds none exactly when no value is below the bound |
| WeightOptimizer.WeightsLast | jaqs/trade/strategy.py:392-398 | the held size of every held symbol, plus 0 for each universe symbol not held |
| Construction.MissingModelAttribute | jaqs/trade/strategy.py:411-414 | 'forecast_revenue' without a revenue model, else 'calc_cost' without a cost model, else 'calc_risk' without a risk model, and nothing exactly when all three are present |
| Construction.EqualWeightPortfolio | jaqs/trade/strategy.py:437-459 | every universe symbol once; unselected symbols get 0; when n > 0 symbols are selected each gets 1/n and the absolute sum is 1 |
| Construction.AbsSumOfSelection | jaqs/trade/strategy.py:445-450 | after the selection step equal weights of 1.0 have the number of selected symbols as their absolute sum |
| Construction.FactorValuePortfolio | jaqs/trade/strategy.py:437-486 | AttributeError without a revenue model, ValueError exactly when the forecast is empty; otherwise the long-only forecast of `FactorValueWeight` put through the clean-up of `Finalize`: the forecast's symbols, none negative, unselected 0, each value divided by the absolute sum when that exceeds 1e-8 |
| Construction.McPortfolio | jaqs/trade/strategy.py:400-452 | a missing model raises AttributeError on the first candidate; otherwise an error exactly when no candidate beats 1e30, and else the first best candidate under net revenue, cleaned and normalised |
| Construction.ConstructPortfolio | jaqs/trade/strategy.py:421-454 | a method not registered raises KeyError; each registered name runs its variant; a result always has absolute sum 1 or at most 1e-8 |
| Construction.ValidatedMethodIsRegistered | jaqs/trade/strategy.py:352-373 | every method that validation accepts is registered, except 'quad_opt' |
| WeightOrders.GoalFor | jaqs/trade/strategy.py:596-616 | a suspended symbol keeps its held size (0 if not held); a weight below 1e-8 in magnitude gives 0; a missing price raises KeyError and a zero price ZeroDivisionError; otherwise the lots are the whole number of lots nearest to w * turnover / price, ties going away from zero, and the step uses lots * 100 * price of cash |
| WeightOrders.NearestLotsUnique | jaqs/trade/strategy.py:604-606 | the nearest lot count, with ties going away from zero, is unique |
| WeightOrders.GoalsFor | jaqs/trade/strategy.py:586-619 | one step per weight in order when every symbol succeeds; otherwise the error of the first failing symbol |
| WeightOrders.Translate | jaqs/trade/strategy.py:582-622 | the error of the first failing symbol; otherwise one goal per weight in order, each the goal of that weight's step, and cash_left = turnover - the cash of all steps |
| WeightOrders.GenerateWeightsOrder | jaqs/trade/strategy.py:557-622 | an algo other than 'close'/'vwap' raises NotImplementedError first; without suspensions any non-empty weights raise TypeError; otherwise one goal per weight and cash_left = turnover - cash used |
| WeightOrders.GenerateShareGoals | jaqs/trade/strategy.py:557-622 | the same with no suspensions when none are given and goals counted in shares |
| WeightOrders.LotCostBound | jaqs/trade/strategy.py:604-609 | rounding to the nearest lot misses w * turnover by at most half a lot's price |
| WeightOrders.SpentNearTarget | jaqs/trade/strategy.py:586-619 | the cash used is the sum of w * turnover up to half a lot's price per symbol |
| WeightOrders.CashLeftNearUnallocated | jaqs/trade/strategy.py:582-622 | cash_left equals turnover * (1 - sum of weights) up to half a lot's price per symbol, so weights summing to 1 leave about nothing |
| WeightOrders.SuspendedGoalsAreMet | jaqs/trade/strategy.py:596-598 | a suspended symbol's goal equals its held size, so `goal_portfolio` sends no order for it |
| WeightOrders.StepsValue | jaqs/trade/strategy.py:603-616 | the cash used equals the goals' value at their prices, times 100 when goals are in lots |
| WeightOrders.ShareGoalsCostWhatTheyClaim | jaqs/trade/strategy.py:603-621 | with goals in shares, turnover - cash_left is exactly the value of the goals |
| WeightOrders.LotGoalsUnderstateCost | jaqs/trade/strategy.py:603-621 | as written, turnover - cash_left is 100 times the value of the goals |
| WeightOrders.WholeTurnoverGoalIsInLots | jaqs/trade/strategy.py:603-616 | all of 100000 on A at price 10: as written the goal is 100 with no cash left, intended 10000 |
| WeightOrders.DefaultSuspensionsFail | jaqs/trade/strategy.py:557-596 | with the default `suspensions=None` a non-empty weight dict fails as written and goes ahead intended |

`WeightOptimizer.NetRevenue` models `util_net_revenue`: revenue minus risk
minus cost, each with coefficient 1.0 (jaqs/trade/strategy.py:400-419). It
has no contract of its own; it is the utility that `Construction.McPortfolio`
passes to `OptimizeMc`.

## Left out

- `EventDrivenStrategy`, `init_from_config`, the callback forwarding, `liquidate_all`, `send_bullets` and `on_after_rebalance`: outside the bookkeeping and rebalancing core.
- `query_order`, `query_trade` and `Strategy.query_portfolio`: stubs that return nothing.
- `AlphaStrategy.query_portfolio`: the holdings it reads are a `Holdings` map input.
- The portfolio manager: `add_order` is the `Registered` log event, and positions are the `Holdings` map.
- The gateway: an oracle indexed by the call's position in the log; its internals are not part of this model.
- `SequenceGenerator`: only its per-key counter behaviour is modelled.
- `np.random.rand` and the row normalisation in `optimize_mc`: the candidate rows are an input, and every property holds for any rows.
- Floating point: values are exact reals, so rounding error and overflow are not modelled. NaN is modelled only where the code tests for it (`np.isnan`). NaN weights given to `generate_weights_order` are not modelled.
- `np.int64(trade_date) * 10000`: unbounded, since trade dates are far below the 64-bit range.
- Python 2 dict iteration order is unspecified; the model iterates in insertion order. Most stated properties are per key or hold for any order. The exception is which error `WeightOrders.GoalsFor` and `WeightOrders.GenerateWeightsOrder` report when several symbols fail: the model reports the first failing symbol in insertion order, while the code reports the first in Python 2's hash order.
- Task ids and entrust numbers are strings in the code (`str(...)` at jaqs/trade/strategy.py:76, the '0' sentinel at :118, the `task_id_map` lookup by task id at :138). The model uses natural numbers, so it cannot express a call such as `cancel_order("007")` with a string that no mint produces.
- The function table of `model.FuncRegisterable`: it is the fixed set of the three names `init_from_config` registers. `func(**options)` is modelled as calling the variant with its intended argument. As written, `optimize_mc` would not accept the extra `constraints` and `initial_value` options, but the registry code is not part of this model.
- The revenue, cost and risk models and the stock selector: given as a forecast, functions and an optional set.
- `algo_param`, and the `algo` argument that `place_batch_order` ignores: dropped.
- `place_batch_order` writes `task_id` and `entrust_no` into the caller's own `Order` objects (jaqs/trade/strategy.py:172-175). The model stamps copies, and the `Registered` events hold those copies by value. So the model does not show that the caller's orders are changed in place. It also does not show aliasing: when one object appears twice in the batch, every reference to it ends up with the second entrust number.
- `print msg` in `portfolio_construction` (jaqs/trade/strategy.py:438-439): console output is not modelled. For 'mc' with no candidate below 1e30, the code prints the "No weights can make f > 1.00e+30 …" message before the AttributeError, and `Construction.McPortfolio` returns only the error.
- `place_batch_order` records each entrust number after the gateway call, while `place_order` records it before. The task map is not part of the event log, so the model shows only the recorded result.
- GoalSubmit.GoalPortfolio: its contract states the counters and the event log, not the replies; the task map follows from `TaskOrders.PlaceBatchOrder`'s contract.
- Construction.ConstructPortfolio: for 'mc' it states the chosen candidate and the error message, and leaves the remaining facts to `Construction.McPortfolio`.

## Findings

| source | as written | input that shows it | evidently intended | confidence | as-written member | corrected member |
|---|---|---|---|---|---|---|
| jaqs/trade/strategy.py:543 | the comprehension tests the weight value `w` against the list of suspended symbols, which never matches, so no weight is zeroed | weights {A: 0.5, B: 0.5}, suspensions ['A'], universe [A, B]: A keeps 0.5 | suspended symbols get weight 0 before renormalising (A 0.0, B 1.0) | high; not executed | PortfolioWeights.SuspendedWeightSurvives | PortfolioWeights.ReWeightSuspensionIntended |
| jaqs/trade/strategy.py:557-596 | the default `suspensions=None` reaches `sec in suspensions` | weights {A: 1.0}, turnover 100000, prices {A: 10}, no suspensions argument: TypeError | no argument means no suspended symbol | high; not executed | WeightOrders.DefaultSuspensionsFail | WeightOrders.GenerateShareGoals |
| jaqs/trade/strategy.py:606-616 | traded goals are set to the lot count, while suspended goals and `goal_portfolio` count shares | weights {A: 1.0}, turnover 100000, prices {A: 10}, suspensions []: goal 100 and cash_left 0, so `goal_portfolio` buys 100 shares for 1000 | goal 10000 shares, so the cash accounted for is the value of the goals | medium; not executed | WeightOrders.LotGoalsUnderstateCost | WeightOrders.ShareGoalsCostWhatTheyClaim |
| jaqs/trade/strategy.py:184 | every reply is joined with commas, even when all are empty | a batch of two orders that the gateway accepts: message "," | an empty message when every order is accepted, as `cancel_order` does | medium; not executed | TaskOrderFacts.BatchAcceptedMessageIsCommas | TaskOrderFacts.PlaceBatchOrderIntended |

=== FILE: construction.dfy ===
/** `AlphaStrategy.portfolio_construction`: run the configured weighting
    method, then clean and normalise what it returns. */
module Construction {
  import opened PyBase
  import opened Dicts
  import opened PortfolioWeights
  import opened WeightOptimizer

  /** The revenue model, reduced to the two calls the core makes on it:
      `make_forecast()` and `forecast_revenue(weights)`. */
  datatype RevenueModel = RevenueModel(forecast: Dict<Num>, forecastRevenue: Dict<real> -> real)

  /** `cost_model.calc_cost(weights_last, weights_target)` */
  type CostModel = (map<Symbol, int>, Dict<real>) -> real

  /** `risk_model.calc_risk(weights_target)` */
  type RiskModel = Dict<real> -> real

  /** The configuration `portfolio_construction` reads from the strategy. */
  datatype AlphaConfig = AlphaConfig(
    pcMethod: string,
    universe: seq<Symbol>,
    selection: Option<set<Symbol>>,
    revenue: Option<RevenueModel>,
    cost: Option<CostModel>,
    risk: Option<RiskModel>)

  /** The names `init_from_config` registers in the function table. */
  const Registered: set<string> := {"equal_weight", "mc", "factor_value_weight"}

  /** The attribute `util_net_revenue` first looks up on a missing model, in
      the order it consults them; None when all three are present. */
  function MissingModelAttribute(cfg: AlphaConfig): (r: Option<string>)
    ensures r.None? <==> cfg.revenue.Some? && cfg.cost.Some? && cfg.risk.Some?
    ensures cfg.revenue.None? ==> r == Some("forecast_revenue")
    ensures cfg.revenue.Some? && cfg.cost.None? ==> r == Some("calc_cost")
    ensures cfg.revenue.Some? && cfg.cost.Some? && cfg.risk.None? ==> r == Some("calc_risk")
  {
    if cfg.revenue.None? then Some("forecast_revenue")
    else if cfg.cost.None? then Some("calc_cost")
    else if cfg.risk.None? then Some("calc_risk")
    else None
  }

  function NoneAttribute(attr: string): PyError
  {
    AttributeError("'NoneType' object has no attribute '" + attr + "'")
  }

  /** `util_net_revenue` bound to the strategy's models and current holdings. */
  function NetUtility(cfg: AlphaConfig, holdings: map<Symbol, int>): Dict<real> -> real
    requires MissingModelAttribute(cfg).None?
  {
    var last := WeightsLast(holdings, cfg.universe);
    w => NetRevenue(cfg.revenue.value.forecastRevenue, cfg.cost.value, cfg.risk.value, last, w)
  }

  /** Symbol i of the result survives the stock selection. */
  predicate Selected(selection: Option<set<Symbol>>, sym: Symbol)
  {
    selection.None? || sym in selection.value
  }

  /** The number of symbols of ks that survive the selection. */
  function SelectedCount(selection: Option<set<Symbol>>, ks: seq<Symbol>): (n: nat)
    ensures n <= |ks|
    ensures n == 0 <==> forall i :: 0 <= i < |ks| ==> !Selected(selection, ks[i])
  {
    if |ks| == 0 then 0
    else
      assert forall i :: 1 <= i < |ks| ==> ks[i] == ks[1..][i - 1];
      (if Selected(selection, ks[0]) then 1 else 0) + SelectedCount(selection, ks[1..])
  }

  /** A dict holding 1.0 for the selected symbols and 0.0 for the others
      has the number of selected symbols as its absolute sum. */
  lemma {:induction false} AbsSumOfSelection(d: Dict<real>, selection: Option<set<Symbol>>)
    requires forall i :: 0 <= i < |d| ==> d[i].1 == (if Selected(selection, d[i].0) then 1.0 else 0.0)
    ensures AbsSum(d) == SelectedCount(selection, Keys(d)) as real
  {
    if |d| > 0 {
      assert Keys(d[1..]) == Keys(d)[1..];
      AbsSumOfSelection(d[1..], selection);
    }
  }

  /** 'equal_weight' followed by the clean-up: every universe symbol, the
      n selected ones sharing the weight 1/n. */
  function EqualWeightPortfolio(cfg: AlphaConfig): (r: Dict<real>)
    ensures Valid(r)
    ensures forall k :: k in Keys(r) <==> k in cfg.universe
    ensures AbsSum(r) == 1.0 || AbsSum(r) <= Eps
    ensures forall i :: 0 <= i < |r| && !Selected(cfg.selection, r[i].0) ==> r[i].1 == 0.0
    ensures forall i, j ::
      (0 <= i < |r| && 0 <= j < |r| && Selected(cfg.selection, r[i].0) && Selected(cfg.selection, r[j].0)) ==>
      r[i].1 == r[j].1 > 0.0
    ensures var n := SelectedCount(cfg.selection, Keys(r));
      n > 0 ==> AbsSum(r) == 1.0 && forall i :: 0 <= i < |r| && Selected(cfg.selection, r[i].0) ==>
        r[i].1 == 1.0 / n as real
  {
    var ones := EqualWeight(cfg.universe);
    var raw := Lift(ones);
    var r := Finalize(raw, cfg.selection);
    assert forall i :: 0 <= i < |raw| ==> raw[i].1 == Finite(1.0);
    var clean := SelectFilter(ZeroNaN(raw), cfg.selection);
    assert Keys(clean) == Keys(r);
    AbsSumOfSelection(clean, cfg.selection);
    r
  }

  /** 'factor_value_weight' followed by the clean-up: the forecast's
      symbols, none with a negative weight. */
  function FactorValuePortfolio(cfg: AlphaConfig): (r: Result<Dict<real>>)
    ensures r.Err? <==> cfg.revenue.None? || |cfg.revenue.value.forecast| == 0
    ensures cfg.revenue.None? ==> r == Err(NoneAttribute("make_forecast"))
    ensures cfg.revenue.Some? && |cfg.revenue.value.forecast| == 0 ==> r.Err? && r.error.ValueError?
    ensures r.Ok? ==> Keys(r.value) == Keys(cfg.revenue.value.forecast)
    ensures r.Ok? ==> AbsSum(r.value) == 1.0 || AbsSum(r.value) <= Eps
    ensures r.Ok? ==> forall i :: 0 <= i < |r.value| ==> r.value[i].1 >= 0.0
    ensures r.Ok? ==> forall i :: 0 <= i < |r.value| && !Selected(cfg.selection, r.value[i].0) ==>
      r.value[i].1 == 0.0
    ensures r.Ok? ==>
      r.value == Finalize(Lift(FactorValueWeight(cfg.revenue.value.forecast).value), cfg.selection)
  {
    if cfg.revenue.None? then Err(NoneAttribute("make_forecast"))
    else
      var fw := FactorValueWeight(cfg.revenue.value.forecast);
      if fw.Err? then Err(fw.error)
      else Ok(Finalize(Lift(fw.value), cfg.selection))
  }

  /** 'mc' followed by the clean-up: a missing model fails on the first
      candidate; otherwise the first best candidate, cleaned and normalised. */
  method McPortfolio(cfg: AlphaConfig, holdings: map<Symbol, int>, candidates: seq<seq<real>>)
    returns (r: Result<Dict<real>>)
    requires |candidates| == NExp && WellShaped(cfg.universe, candidates)
    ensures MissingModelAttribute(cfg).Some? ==> r == Err(NoneAttribute(MissingModelAttribute(cfg).value))
    ensures MissingModelAttribute(cfg).None? ==>
      (r.Err? <==> forall j :: 0 <= j < |candidates| ==>
         -Utility(cfg.universe, candidates, NetUtility(cfg, holdings), j) >= MinFStart)
    ensures MissingModelAttribute(cfg).None? && r.Err? ==> r == Err(NoneAttribute("viewitems"))
    ensures r.Ok? ==> MissingModelAttribute(cfg).None?
    ensures r.Ok? ==>
      exists k: nat :: (IsFirstBest(cfg.universe, candidates, NetUtility(cfg, holdings), k) &&
        r.value == Finalize(Lift(CandidateWeights(cfg.universe, candidates[k])), cfg.selection))
    ensures r.Ok? ==> AbsSum(r.value) == 1.0 || AbsSum(r.value) <= Eps
  {
    var missing := MissingModelAttribute(cfg);
    if missing.Some? {
      return Err(NoneAttribute(missing.value));
    }
    var best, msg := OptimizeMc(cfg.universe, candidates, NetUtility(cfg, holdings));
    if best.None? {
      return Err(NoneAttribute("viewitems"));
    }
    r := Ok(Finalize(Lift(best.value), cfg.selection));
  }

  /** `portfolio_construction()`: look the method up in the function table
      (KeyError when it was never registered) and run it; the Monte-Carlo
      candidates are the `NExp` rows the source draws at random. */
  method ConstructPortfolio(cfg: AlphaConfig, holdings: map<Symbol, int>, candidates: seq<seq<real>>)
    returns (r: Result<Dict<real>>)
    requires |candidates| == NExp && WellShaped(cfg.universe, candidates)
    ensures cfg.pcMethod !in Registered ==> r == Err(KeyError(cfg.pcMethod))
    ensures cfg.pcMethod == "equal_weight" ==> r == Ok(EqualWeightPortfolio(cfg))
    ensures cfg.pcMethod == "factor_value_weight" ==> r == FactorValuePortfolio(cfg)
    ensures cfg.pcMethod == "mc" && r.Ok? ==>
      (MissingModelAttribute(cfg).None? &&
       exists k: nat :: (IsFirstBest(cfg.universe, candidates, NetUtility(cfg, holdings), k) &&
         r.value == Finalize(Lift(CandidateWeights(cfg.universe, candidates[k])), cfg.selection)))
    ensures cfg.pcMethod == "mc" && r.Err? ==>
      r.error == NoneAttribute(if MissingModelAttribute(cfg).Some? then MissingModelAttribute(cfg).value else "viewitems")
    ensures r.Ok? ==> AbsSum(r.value) == 1.0 || AbsSum(r.value) <= Eps
  {
    if cfg.pcMethod !in Registered {
      r := Err(KeyError(cfg.pcMethod));
    } else if cfg.pcMethod == "equal_weight" {
      r := Ok(EqualWeightPortfolio(cfg));
    } else if cfg.pcMethod == "factor_value_weight" {
      r := FactorValuePortfolio(cfg);
    } else {
      r := McPortfolio(cfg, holdings, candidates);
    }
  }

  /** Every method `_validate_parameters` accepts is registered, except
      'quad_opt', for which `portfolio_construction` raises KeyError. */
  lemma ValidatedMethodIsRegistered(pcMethod: string, hasRevenue: bool, hasCost: bool, hasRisk: bool)
    requires ValidateParameters(pcMethod, hasRevenue, hasCost, hasRisk).None?
    ensures pcMethod in Registered <==> pcMethod != "quad_opt"
  {
  }
}

=== FILE: dicts.dfy ===
/** Python dicts as insertion-ordered association lists.  A dict's iteration
    order is the order of this sequence; assigning to an existing key keeps
    its position and replaces its value, a new key goes to the end. */
module Dicts {
  import opened PyBase

  type Dict<V> = seq<(Symbol, V)>

  function Keys<V>(d: Dict<V>): (ks: seq<Symbol>)
    ensures |ks| == |d|
    ensures forall i :: 0 <= i < |d| ==> ks[i] == d[i].0
  {
    seq(|d|, i requires 0 <= i < |d| => d[i].0)
  }

  /** No key appears twice, as in every Python dict. */
  predicate Valid<V>(d: Dict<V>)
  {
    forall i, j :: 0 <= i < j < |d| ==> d[i].0 != d[j].0
  }

  /** `d.get(k)` */
  function Get<V>(d: Dict<V>, k: Symbol): (r: Option<V>)
    ensures r.None? <==> k !in Keys(d)
  {
    if |d| == 0 then None
    else if d[0].0 == k then Some(d[0].1)
    else Get(d[1..], k)
  }

  /** `d[k] = v` */
  function Insert<V>(d: Dict<V>, k: Symbol, v: V): (r: Dict<V>)
    ensures k in Keys(d) ==> Keys(r) == Keys(d)
    ensures k !in Keys(d) ==> Keys(r) == Keys(d) + [k]
  {
    if |d| == 0 then [(k, v)]
    else if d[0].0 == k then [(k, v)] + d[1..]
    else
      var rest := Insert(d[1..], k, v);
      assert Keys(d) == [d[0].0] + Keys(d[1..]);
      assert Keys([d[0]] + rest) == [d[0].0] + Keys(rest);
      [d[0]] + rest
  }

  /** After `d[k] = v` the key reads back v and every other key is untouched. */
  lemma {:induction false} InsertGet<V>(d: Dict<V>, k: Symbol, v: V, k': Symbol)
    ensures Get(Insert(d, k, v), k) == Some(v)
    ensures k' != k ==> Get(Insert(d, k, v), k') == Get(d, k')
  {
    if |d| > 0 && d[0].0 != k {
      InsertGet(d[1..], k, v, k');
      assert Insert(d, k, v)[1..] == Insert(d[1..], k, v);
    }
  }

  /** Assignment never duplicates a key. */
  lemma {:induction false} InsertValid<V>(d: Dict<V>, k: Symbol, v: V)
    requires Valid(d)
    ensures Valid(Insert(d, k, v))
  {
    var r := Insert(d, k, v);
    assert Keys(r) == Keys(d) || Keys(r) == Keys(d) + [k];
    forall i, j | 0 <= i < j < |r|
      ensures r[i].0 != r[j].0
    {
      assert Keys(r)[i] == r[i].0 && Keys(r)[j] == r[j].0;
    }
  }

  /** Assignment only ever stores the assigned pair. */
  lemma {:induction false} InsertEntries<V>(d: Dict<V>, k: Symbol, v: V)
    ensures forall e :: e in Insert(d, k, v) ==> e in d || e == (k, v)
  {
    if |d| > 0 && d[0].0 != k {
      InsertEntries(d[1..], k, v);
      assert forall e :: e in d[1..] ==> e in d;
    }
  }

  /** `{k: v for (k, v) in pairs}` */
  function FromPairs<V>(pairs: seq<(Symbol, V)>): (r: Dict<V>)
    ensures Valid(r)
    ensures forall k :: k in Keys(r) <==> k in Keys(pairs)
    ensures forall e :: e in r ==> e in pairs
  {
    if |pairs| == 0 then []
    else
      var init := pairs[..|pairs| - 1];
      var last := pairs[|pairs| - 1];
      assert Keys(pairs) == Keys(init) + [last.0];
      InsertValid(FromPairs(init), last.0, last.1);
      InsertEntries(FromPairs(init), last.0, last.1);
      assert forall e :: e in init ==> e in pairs;
      Insert(FromPairs(init), last.0, last.1)
  }

  /** The value a comprehension leaves for a key is the one paired with it last. */
  lemma {:induction false} FromPairsLastWins<V>(pairs: seq<(Symbol, V)>, i: nat)
    requires i < |pairs|
    requires forall j :: i < j < |pairs| ==> pairs[j].0 != pairs[i].0
    ensures Get(FromPairs(pairs), pairs[i].0) == Some(pairs[i].1)
  {
    var init := pairs[..|pairs| - 1];
    var last := pairs[|pairs| - 1];
    InsertGet(FromPairs(init), last.0, last.1, pairs[i].0);
    if i < |pairs| - 1 {
      FromPairsLastWins(init, i);
    }
  }

  /** Sum of absolute values, `np.sum(np.abs(d.values()))`. */
  function AbsSum(d: Dict<real>): (s: real)
    ensures s >= 0.0
  {
    if |d| == 0 then 0.0 else Abs(d[0].1) + AbsSum(d[1..])
  }

  /** `{k: v / s for k, v in d.items()}` */
  function DivideBy(d: Dict<real>, s: real): (r: Dict<real>)
    requires s != 0.0
    ensures Keys(r) == Keys(d)
    ensures forall i :: 0 <= i < |d| ==> r[i].1 == Quotient(d[i].1, s)
  {
    seq(|d|, i requires 0 <= i < |d| => (d[i].0, Quotient(d[i].1, s)))
  }

  /** `v / s`, named so that the lemmas below can speak of one division
      and the per-value clauses of `DivideBy` have a term to match on. */
  function Quotient(v: real, s: real): real
    requires s != 0.0
  {
    v / s
  }

  /** Dividing every value by a positive s divides the absolute sum by s. */
  lemma {:induction false} AbsSumDivideBy(d: Dict<real>, s: real)
    requires s > 0.0
    ensures AbsSum(DivideBy(d, s)) == Quotient(AbsSum(d), s)
  {
    if |d| > 0 {
      var q := DivideBy(d, s);
      assert q[1..] == DivideBy(d[1..], s);
      AbsSumDivideBy(d[1..], s);
      AbsOfQuotient(d[0].1, s);
      QuotientOfSum(Abs(d[0].1), AbsSum(d[1..]), s);
    }
  }

  /** Normalising by the absolute sum itself leaves an absolute sum of one. */
  lemma AbsSumNormalised(d: Dict<real>)
    requires AbsSum(d) > 0.0
    ensures AbsSum(DivideBy(d, AbsSum(d))) == 1.0
  {
    var s := AbsSum(d);
    AbsSumDivideBy(d, s);
    QuotientSelf(s);
  }

  lemma QuotientSelf(s: real)
    requires s > 0.0
    ensures Quotient(s, s) == 1.0
  {
  }

  lemma AbsOfQuotient(v: real, s: real)
    requires s > 0.0
    ensures Abs(Quotient(v, s)) == Quotient(Abs(v), s)
  {
    if v < 0.0 {
      assert v / s < 0.0;
      assert -(v / s) == (-v) / s;
    }
  }

  lemma QuotientOfSum(a: real, b: real, s: real)
    requires s > 0.0
    ensures Quotient(a + b, s) == Quotient(a, s) + Quotient(b, s)
  {
  }

  /** The absolute sum is zero exactly when every value is zero. */
  lemma {:induction false} AbsSumZero(d: Dict<real>)
    ensures AbsSum(d) == 0.0 <==> forall i :: 0 <= i < |d| ==> d[i].1 == 0.0
  {
    if |d| > 0 {
      AbsSumZero(d[1..]);
      assert forall i :: 1 <= i < |d| ==> d[i].1 == d[1..][i - 1].1;
    }
  }
}

=== FILE: goals.dfy ===
/** `Strategy.goal_portfolio`: compare goal positions with what is held and
    submit the differences as one batch of orders. */
module GoalSubmit {
  import opened PyBase
  import opened SequenceIds
  import opened TaskOrders

  /** A desired end-state size for one symbol. */
  datatype GoalPosition = GoalPosition(symbol: Symbol, size: int)

  /** What the portfolio manager holds: `holding_securities` are the keys,
      `get_position(sec, date).curr_size` the values. */
  type Holdings = map<Symbol, int>

  function HeldSize(h: Holdings, sym: Symbol): int
  {
    if sym in h then h[sym] else 0
  }

  /** The order moving one symbol from its held size to its goal, or None
      when the goal is already met. */
  function DeltaOrder(g: GoalPosition, h: Holdings, tradeDate: nat): (r: Option<Order>)
    ensures r.None? <==> g.size == HeldSize(h, g.symbol)
    ensures r.Some? ==>
      && r.value.symbol == g.symbol
      && r.value.size > 0
      && (r.value.action == Buy <==> g.size > HeldSize(h, g.symbol))
      && (r.value.action == Buy ==> r.value.size == g.size - HeldSize(h, g.symbol))
      && (r.value.action == Sell ==> r.value.size == HeldSize(h, g.symbol) - g.size)
      && r.value.price == 0.0
      && r.value.priceTarget == "vwap"
      && r.value.entrustDate == tradeDate
  {
    var diff := g.size - HeldSize(h, g.symbol);
    if diff == 0 then None
    else
      var action := if diff > 0 then Buy else Sell;
      var size := if diff < 0 then -diff else diff;
      Some(NewOrder(g.symbol, action, 0.0, size, tradeDate, 0).(priceTarget := "vwap"))
  }

  /** The held size of the goal's symbol differs from the goal. */
  predicate Unmet(g: GoalPosition, h: Holdings)
  {
    g.size != HeldSize(h, g.symbol)
  }

  /** Every goal is already held. */
  predicate AllMet(goals: seq<GoalPosition>, h: Holdings)
  {
    forall i :: 0 <= i < |goals| ==> !Unmet(goals[i], h)
  }

  /** The number of unmet goals among the first i. */
  function UnmetBefore(goals: seq<GoalPosition>, h: Holdings, i: nat): (n: nat)
    requires i <= |goals|
    ensures n <= i
  {
    if i == 0 then 0
    else UnmetBefore(goals, h, i - 1) + (if Unmet(goals[i - 1], h) then 1 else 0)
  }

  /** No goal among the first i is unmet exactly when all of them are held. */
  lemma {:induction false} UnmetBeforeZero(goals: seq<GoalPosition>, h: Holdings, i: nat)
    requires i <= |goals|
    ensures UnmetBefore(goals, h, i) == 0 <==> forall j :: 0 <= j < i ==> !Unmet(goals[j], h)
  {
    if i > 0 {
      UnmetBeforeZero(goals, h, i - 1);
    }
  }

  /** Counting from the second goal on: the first goal's share plus the
      count among the later goals. */
  lemma {:induction false} UnmetBeforeShift(goals: seq<GoalPosition>, h: Holdings, i: nat)
    requires 1 <= i <= |goals|
    ensures UnmetBefore(goals, h, i) == (if Unmet(goals[0], h) then 1 else 0) + UnmetBefore(goals[1..], h, i - 1)
  {
    if i > 1 {
      UnmetBeforeShift(goals, h, i - 1);
      assert goals[i - 1] == goals[1..][i - 2];
    }
  }

  /** `goal_portfolio` sends no order exactly when every goal is already held. */
  lemma {:induction false} NoOrdersExactlyWhenMet(goals: seq<GoalPosition>, h: Holdings, tradeDate: nat)
    ensures DiffOrders(goals, h, tradeDate) == [] <==> AllMet(goals, h)
  {
    UnmetBeforeZero(goals, h, |goals|);
  }

  /** The loop of `goal_portfolio` collecting one order per unmet goal, in
      goal order (`DiffOrdersInGoalOrder` places each one). */
  function DiffOrders(goals: seq<GoalPosition>, h: Holdings, tradeDate: nat): (r: seq<Order>)
    ensures |r| == UnmetBefore(goals, h, |goals|)
  {
    if |goals| == 0 then []
    else
      var rest := DiffOrders(goals[1..], h, tradeDate);
      UnmetBeforeShift(goals, h, |goals|);
      match DeltaOrder(goals[0], h, tradeDate)
      case None => rest
      case Some(o) => [o] + rest
  }

  /** The order of an unmet goal is that goal's `DeltaOrder`, placed after
      the orders of the unmet goals before it. */
  lemma {:induction false} DiffOrdersInGoalOrder(goals: seq<GoalPosition>, h: Holdings, tradeDate: nat, i: nat)
    requires i < |goals| && Unmet(goals[i], h)
    ensures UnmetBefore(goals, h, i) < |DiffOrders(goals, h, tradeDate)|
    ensures DiffOrders(goals, h, tradeDate)[UnmetBefore(goals, h, i)] == DeltaOrder(goals[i], h, tradeDate).value
  {
    if i == 0 {
      var _ := DiffOrdersHead(goals, h, tradeDate);
    } else {
      var tail := goals[1..];
      assert goals[i] == tail[i - 1];
      DiffOrdersInGoalOrder(tail, h, tradeDate, i - 1);
      DiffOrdersShift(goals, h, tradeDate, i);
    }
  }

  /** One step of `DiffOrdersInGoalOrder`: the position of goal i among the
      orders of all goals, from its position among those of the later goals. */
  lemma DiffOrdersShift(goals: seq<GoalPosition>, h: Holdings, tradeDate: nat, i: nat)
    requires 1 <= i < |goals|
    requires UnmetBefore(goals[1..], h, i - 1) < |DiffOrders(goals[1..], h, tradeDate)|
    ensures UnmetBefore(goals, h, i) < |DiffOrders(goals, h, tradeDate)|
    ensures DiffOrders(goals, h, tradeDate)[UnmetBefore(goals, h, i)]
         == DiffOrders(goals[1..], h, tradeDate)[UnmetBefore(goals[1..], h, i - 1)]
  {
    var head := DiffOrdersHead(goals, h, tradeDate);
    var rest := DiffOrders(goals[1..], h, tradeDate);
    UnmetBeforeShift(goals, h, i);
    var k := UnmetBefore(goals[1..], h, i - 1);
    assert (head + rest)[|head| + k] == rest[k];
  }

  /** The orders of the first goal: one when it is unmet, none otherwise. */
  function DiffOrdersHead(goals: seq<GoalPosition>, h: Holdings, tradeDate: nat): (r: seq<Order>)
    requires |goals| > 0
    ensures |r| == if Unmet(goals[0], h) then 1 else 0
    ensures |r| == 1 ==> r[0] == DeltaOrder(goals[0], h, tradeDate).value
    ensures DiffOrders(goals, h, tradeDate) == r + DiffOrders(goals[1..], h, tradeDate)
  {
    match DeltaOrder(goals[0], h, tradeDate)
    case None => []
    case Some(o) => [o]
  }

  /** `goal_portfolio(goals)`: the goal list must have one entry per universe
      symbol; the deltas then go out as a single batch. */
  function GoalPortfolio(s: State, goals: seq<GoalPosition>, h: Holdings, gw: Gateway): (r: Result<State>)
    ensures r.Err? <==> |goals| != |s.ctx.universe|
    ensures r.Err? ==> r.error == AssertionError
    ensures r.Ok? ==>
      var orders := DiffOrders(goals, h, s.ctx.tradeDate);
      && r.value.ctx == s.ctx
      && Issued(r.value.ids, TaskKey) == Issued(s.ids, TaskKey) + 1
      && Issued(r.value.ids, EntrustKey) == Issued(s.ids, EntrustKey) + |orders|
      && (forall k :: k != TaskKey && k != EntrustKey ==> Issued(r.value.ids, k) == Issued(s.ids, k))
      && r.value.log == s.log
           + BatchEvents(StampAll(orders, NextTaskId(s), s.ctx.tradeDate, Issued(s.ids, EntrustKey)))
  {
    if |goals| != |s.ctx.universe| then Err(AssertionError)
    else
      var orders := DiffOrders(goals, h, s.ctx.tradeDate);
      var (s', _) := PlaceBatchOrder(s, orders, gw);
      Ok(s')
  }

  /** Executing an order in full: buys add to the held size, sells subtract. */
  function Fill(h: Holdings, o: Order): Holdings
  {
    var delta := if o.action == Buy then o.size else -o.size;
    h[o.symbol := HeldSize(h, o.symbol) + delta]
  }

  function FillAll(h: Holdings, os: seq<Order>): Holdings
    decreases |os|
  {
    if |os| == 0 then h else FillAll(Fill(h, os[0]), os[1..])
  }

  predicate DistinctSymbols(goals: seq<GoalPosition>)
  {
    forall i, j :: 0 <= i < j < |goals| ==> goals[i].symbol != goals[j].symbol
  }

  function GoalSymbols(goals: seq<GoalPosition>): set<Symbol>
  {
    set i | 0 <= i < |goals| :: goals[i].symbol
  }

  /** Every delta order is for a symbol among the goals. */
  lemma {:induction false} DiffOrdersSymbols(goals: seq<GoalPosition>, h: Holdings, tradeDate: nat)
    ensures forall o :: o in DiffOrders(goals, h, tradeDate) ==> o.symbol in GoalSymbols(goals)
  {
    if |goals| > 0 {
      DiffOrdersSymbols(goals[1..], h, tradeDate);
      assert GoalSymbols(goals[1..]) <= GoalSymbols(goals) by {
        forall x | x in GoalSymbols(goals[1..]) ensures x in GoalSymbols(goals) {
          var i :| 0 <= i < |goals[1..]| && goals[1..][i].symbol == x;
          assert goals[i + 1].symbol == x;
        }
      }
    }
  }

  /** Filling orders leaves every other symbol's size alone. */
  lemma {:induction false} FillAllElsewhere(h: Holdings, os: seq<Order>, sym: Symbol)
    requires forall o :: o in os ==> o.symbol != sym
    ensures HeldSize(FillAll(h, os), sym) == HeldSize(h, sym)
    decreases |os|
  {
    if |os| > 0 {
      assert os[0] in os;
      FillAllElsewhere(Fill(h, os[0]), os[1..], sym);
    }
  }

  /** The deltas only read the held sizes of the goals' own symbols. */
  lemma {:induction false} DiffOrdersLocal(goals: seq<GoalPosition>, h: Holdings, h': Holdings, tradeDate: nat)
    requires forall i :: 0 <= i < |goals| ==> HeldSize(h, goals[i].symbol) == HeldSize(h', goals[i].symbol)
    ensures DiffOrders(goals, h, tradeDate) == DiffOrders(goals, h', tradeDate)
  {
    if |goals| > 0 {
      assert HeldSize(h, goals[0].symbol) == HeldSize(h', goals[0].symbol);
      assert DeltaOrder(goals[0], h, tradeDate) == DeltaOrder(goals[0], h', tradeDate);
      assert forall i :: 0 <= i < |goals[1..]| ==> goals[1..][i] == goals[i + 1];
      DiffOrdersLocal(goals[1..], h, h', tradeDate);
    }
  }

  /** The holdings after filling the delta order of one goal, if any. */
  function FillGoal(g: GoalPosition, h: Holdings, tradeDate: nat): Holdings
  {
    match DeltaOrder(g, h, tradeDate)
    case None => h
    case Some(o) => Fill(h, o)
  }

  lemma FillAllFirst(goals: seq<GoalPosition>, h: Holdings, tradeDate: nat)
    requires |goals| > 0
    ensures FillAll(h, DiffOrders(goals, h, tradeDate))
         == FillAll(FillGoal(goals[0], h, tradeDate), DiffOrders(goals[1..], h, tradeDate))
  {
    var rest := DiffOrders(goals[1..], h, tradeDate);
    match DeltaOrder(goals[0], h, tradeDate)
    case None =>
    case Some(o) =>
      assert DiffOrders(goals, h, tradeDate) == [o] + rest;
      assert ([o] + rest)[1..] == rest;
  }

  /** Once every delta order is filled, each goal symbol holds exactly its goal
      size (provided no symbol has two goals). */
  lemma {:induction false} DiffOrdersReachGoals(goals: seq<GoalPosition>, h: Holdings, tradeDate: nat)
    requires DistinctSymbols(goals)
    ensures forall i :: 0 <= i < |goals| ==>
      HeldSize(FillAll(h, DiffOrders(goals, h, tradeDate)), goals[i].symbol) == goals[i].size
  {
    if |goals| > 0 {
      var g := goals[0];
      var rest := goals[1..];
      var h1 := FillGoal(g, h, tradeDate);
      assert HeldSize(h1, g.symbol) == g.size;
      assert forall i :: 0 <= i < |rest| ==> rest[i].symbol != g.symbol by {
        forall i | 0 <= i < |rest| ensures rest[i].symbol != g.symbol {
          assert rest[i] == goals[i + 1];
        }
      }
      DiffOrdersLocal(rest, h, h1, tradeDate);
      FillAllFirst(goals, h, tradeDate);
      var hEnd := FillAll(h1, DiffOrders(rest, h1, tradeDate));
      assert FillAll(h, DiffOrders(goals, h, tradeDate)) == hEnd;
      DiffOrdersReachGoals(rest, h1, tradeDate);
      DiffOrdersSymbols(rest, h1, tradeDate);
      FillAllElsewhere(h1, DiffOrders(rest, h1, tradeDate), g.symbol);
      forall i | 0 <= i < |goals|
        ensures HeldSize(hEnd, goals[i].symbol) == goals[i].size
      {
        if i > 0 {
          assert goals[i] == rest[i - 1];
        }
      }
    }
  }
}

=== FILE: ids.dfy ===
/** Identifier minting: a per-key sequence generator and the
    `trade_date * 10000 + counter` id format of `Strategy._get_next_num`. */
module SequenceIds {

  /** The two counter namespaces the strategy uses. */
  const TaskKey: string := "task_id"
  const EntrustKey: string := "entrust_no"

  /** Digit budget reserved for the counter inside an id. */
  const IdBase: nat := 10000

  /** Per-key counters; a missing key has issued nothing yet. */
  type SeqGen = map<string, nat>

  function Issued(g: SeqGen, key: string): nat
  {
    if key in g then g[key] else 0
  }

  /** `SequenceGenerator.get_next(key)`: the counter for `key` advances by one
      and its new value is returned; other keys are untouched. */
  function GetNext(g: SeqGen, key: string): (r: (SeqGen, nat))
    ensures r.1 == Issued(g, key) + 1 && r.1 >= 1
    ensures Issued(r.0, key) == r.1
    ensures forall k :: k != key ==> Issued(r.0, k) == Issued(g, k)
  {
    var n := Issued(g, key) + 1;
    (g[key := n], n)
  }

  function MakeId(tradeDate: nat, counter: nat): nat
  {
    tradeDate * IdBase + counter
  }

  /** `_get_next_num(key)`: mint the next id of `key` on `tradeDate`. */
  function NextNum(g: SeqGen, key: string, tradeDate: nat): (r: (SeqGen, nat))
    ensures r.1 == MakeId(tradeDate, Issued(g, key) + 1)
    ensures r.1 > 0
    ensures Issued(r.0, key) == Issued(g, key) + 1
    ensures forall k :: k != key ==> Issued(r.0, k) == Issued(g, k)
  {
    var (g', n) := GetNext(g, key);
    (g', MakeId(tradeDate, n))
  }

  /** n successive `_get_next_num(key)` calls on the same date. */
  function NextNums(g: SeqGen, key: string, tradeDate: nat, n: nat): (r: (SeqGen, seq<nat>))
    ensures |r.1| == n
    ensures forall i :: 0 <= i < n ==> r.1[i] == MakeId(tradeDate, Issued(g, key) + i + 1)
    ensures Issued(r.0, key) == Issued(g, key) + n
    ensures forall k :: k != key ==> Issued(r.0, k) == Issued(g, k)
    decreases n
  {
    if n == 0 then (g, [])
    else
      var (g1, id) := NextNum(g, key, tradeDate);
      var (g2, ids) := NextNums(g1, key, tradeDate, n - 1);
      (g2, [id] + ids)
  }

  /** A fresh generator yields `date*10000+1, …, date*10000+n` in order. */
  lemma FreshGeneratorIds(key: string, tradeDate: nat, n: nat)
    ensures NextNums(map[], key, tradeDate, n).1
         == seq(n, i requires 0 <= i < n => tradeDate * 10000 + i + 1)
  {
  }

  /** Within the digit budget an id determines its date and its counter. */
  lemma IdDecodes(tradeDate: nat, counter: nat)
    requires counter < IdBase
    ensures MakeId(tradeDate, counter) / IdBase == tradeDate
    ensures MakeId(tradeDate, counter) % IdBase == counter
  {
  }

  /** Hence ids minted with counters below 10000 never collide. */
  lemma IdInjective(d1: nat, c1: nat, d2: nat, c2: nat)
    requires c1 < IdBase && c2 < IdBase
    requires MakeId(d1, c1) == MakeId(d2, c2)
    ensures d1 == d2 && c1 == c2
  {
    IdDecodes(d1, c1);
    IdDecodes(d2, c2);
  }

  /** Past the budget they do: the 10001st id of one day is the first of the next. */
  lemma IdOverflowCollides(tradeDate: nat)
    ensures MakeId(tradeDate, IdBase + 1) == MakeId(tradeDate + 1, 1)
  {
  }
}

=== FILE: optimizer.dfy ===
/** `AlphaStrategy.optimize_mc` and the utility it maximises.

    The random draw of candidate weight rows (`np.random.rand` followed by
    division by the row sums) is not modelled: the candidate matrix is an
    input, so the search is checked for every possible draw. */
module WeightOptimizer {
  import opened PyBase
  import opened Dicts

  /** Number of Monte-Carlo experiments the source draws. */
  const NExp: nat := 5

  /** 1e30, the initial bound `min_f` on the negated utility. */
  const MinFStart: real := 1000000000000000000000000000000.0

  /** The message `optimize_mc` formats when no candidate beats `min_f`
      (`"{:.2e}".format(1e30)`). */
  const NoWeightsMsg: string := "No weights can make f > 1.00e+30 found in this search"

  /** Every candidate row has one entry per universe symbol, as the
      `(n_exp, n_var)` matrix of the source does. */
  predicate WellShaped(universe: seq<Symbol>, candidates: seq<seq<real>>)
  {
    forall i :: 0 <= i < |candidates| ==> |candidates[i]| == |universe|
  }

  /** `{universe[j]: row[j] for j in range(n_var)}` */
  function CandidateWeights(universe: seq<Symbol>, row: seq<real>): (r: Dict<real>)
    requires |row| == |universe|
    ensures Valid(r)
    ensures forall k :: k in Keys(r) <==> k in universe
    ensures forall j :: 0 <= j < |universe| && (forall j' :: j < j' < |universe| ==> universe[j'] != universe[j]) ==>
      Get(r, universe[j]) == Some(row[j])
  {
    var pairs := seq(|universe|, j requires 0 <= j < |universe| => (universe[j], row[j]));
    assert Keys(pairs) == universe;
    forall j | 0 <= j < |universe| && (forall j' :: j < j' < |universe| ==> universe[j'] != universe[j])
      ensures Get(FromPairs(pairs), universe[j]) == Some(row[j])
    {
      FromPairsLastWins(pairs, j);
    }
    FromPairs(pairs)
  }

  /** The utility of candidate i under `util`. */
  function Utility(universe: seq<Symbol>, candidates: seq<seq<real>>, util: Dict<real> -> real, i: nat): real
    requires WellShaped(universe, candidates) && i < |candidates|
  {
    util(CandidateWeights(universe, candidates[i]))
  }

  /** Candidate k is the one `optimize_mc` keeps: its negated utility is
      below 1e30, no candidate has a higher utility, and every earlier
      candidate has a strictly lower one. */
  ghost predicate IsFirstBest(universe: seq<Symbol>, candidates: seq<seq<real>>, util: Dict<real> -> real, k: nat)
    requires WellShaped(universe, candidates)
  {
    && k < |candidates|
    && -Utility(universe, candidates, util, k) < MinFStart
    && (forall j :: 0 <= j < |candidates| ==>
          Utility(universe, candidates, util, j) <= Utility(universe, candidates, util, k))
    && (forall j :: 0 <= j < k ==>
          Utility(universe, candidates, util, j) < Utility(universe, candidates, util, k))
  }

  /** The negated utilities `f` of all candidates, in draw order. */
  function NegUtilities(universe: seq<Symbol>, candidates: seq<seq<real>>, util: Dict<real> -> real): (fs: seq<real>)
    requires WellShaped(universe, candidates)
    ensures |fs| == |candidates|
    ensures forall j :: 0 <= j < |fs| ==> fs[j] == -Utility(universe, candidates, util, j)
  {
    seq(|candidates|, j requires 0 <= j < |candidates| => -Utility(universe, candidates, util, j))
  }

  /** Among the first n values of fs, index k holds the least, and every
      earlier index holds a strictly greater one. */
  ghost predicate FirstMinimum(fs: seq<real>, n: nat, k: nat)
  {
    && k < n <= |fs|
    && (forall j :: 0 <= j < n ==> fs[j] >= fs[k])
    && (forall j :: 0 <= j < k ==> fs[j] > fs[k])
  }

  /** The loop of `optimize_mc` on the negated utilities: the index of the
      first least value below `bound`, or None when no value is below it. */
  method FirstMinimumBelow(fs: seq<real>, bound: real) returns (k: Option<nat>)
    ensures k.None? <==> forall j :: 0 <= j < |fs| ==> fs[j] >= bound
    ensures k.Some? ==> FirstMinimum(fs, |fs|, k.value) && fs[k.value] < bound
  {
    var minF := bound;
    k := None;
    for i := 0 to |fs|
      invariant k.None? ==> minF == bound && forall j :: 0 <= j < i ==> fs[j] >= bound
      invariant k.Some? ==> FirstMinimum(fs, i, k.value) && minF == fs[k.value] < bound
    {
      if fs[i] < minF {
        if k.None? {
          FirstMinimumStart(fs, i, bound);
        } else {
          FirstMinimumReplace(fs, i, k.value);
        }
        k := Some(i);
        minF := fs[i];
      } else if k.Some? {
        FirstMinimumKeep(fs, i, k.value);
      }
    }
  }

  /** `optimize_mc(util_func)` over a given candidate matrix. */
  method OptimizeMc(universe: seq<Symbol>, candidates: seq<seq<real>>, util: Dict<real> -> real)
    returns (best: Option<Dict<real>>, msg: string)
    requires WellShaped(universe, candidates)
    ensures best.None? <==>
      forall j :: 0 <= j < |candidates| ==> -Utility(universe, candidates, util, j) >= MinFStart
    ensures best.None? ==> msg == NoWeightsMsg
    ensures best.Some? ==> msg == ""
    ensures best.Some? ==>
      exists k: nat :: IsFirstBest(universe, candidates, util, k)
        && best.value == CandidateWeights(universe, candidates[k])
  {
    var fs := NegUtilities(universe, candidates, util);
    var k := FirstMinimumBelow(fs, MinFStart);
    NoCandidateBelowStart(universe, candidates, util);
    if k.None? {
      best, msg := None, NoWeightsMsg;
    } else {
      FirstMinimumIsFirstBest(universe, candidates, util, k.value);
      best, msg := Some(CandidateWeights(universe, candidates[k.value])), "";
    }
  }

  /** The first value below the bound is the first minimum so far. */
  lemma FirstMinimumStart(fs: seq<real>, i: nat, bound: real)
    requires i < |fs| && fs[i] < bound
    requires forall j :: 0 <= j < i ==> fs[j] >= bound
    ensures FirstMinimum(fs, i + 1, i)
  {
  }

  /** A value strictly below the current minimum becomes the new one. */
  lemma FirstMinimumReplace(fs: seq<real>, i: nat, k: nat)
    requires i < |fs| && FirstMinimum(fs, i, k) && fs[i] < fs[k]
    ensures FirstMinimum(fs, i + 1, i)
  {
  }

  /** A value not below the current minimum leaves it in place. */
  lemma FirstMinimumKeep(fs: seq<real>, i: nat, k: nat)
    requires i < |fs| && FirstMinimum(fs, i, k) && fs[i] >= fs[k]
    ensures FirstMinimum(fs, i + 1, k)
  {
  }

  lemma NoCandidateBelowStart(universe: seq<Symbol>, candidates: seq<seq<real>>, util: Dict<real> -> real)
    requires WellShaped(universe, candidates)
    ensures (forall j :: 0 <= j < |candidates| ==> NegUtilities(universe, candidates, util)[j] >= MinFStart)
        <==> (forall j :: 0 <= j < |candidates| ==> -Utility(universe, candidates, util, j) >= MinFStart)
  {
    var fs := NegUtilities(universe, candidates, util);
  }

  lemma FirstMinimumIsFirstBest(universe: seq<Symbol>, candidates: seq<seq<real>>, util: Dict<real> -> real, k: nat)
    requires WellShaped(universe, candidates)
    requires FirstMinimum(NegUtilities(universe, candidates, util), |candidates|, k)
    requires NegUtilities(universe, candidates, util)[k] < MinFStart
    ensures IsFirstBest(universe, candidates, util, k)
  {
  }

  /** Cost and risk coefficients of `util_net_revenue`. */
  const RiskCoef: real := 1.0
  const CostCoef: real := 1.0

  /** `_get_weights_last`: the held size of every held symbol, and 0 for
      universe symbols not held. */
  function WeightsLast(holdings: map<Symbol, int>, universe: seq<Symbol>): (r: map<Symbol, int>)
    ensures r.Keys == holdings.Keys + (set u | u in universe)
    ensures forall s :: s in r ==> r[s] == (if s in holdings then holdings[s] else 0)
  {
    map s | s in holdings.Keys + (set u | u in universe) :: if s in holdings then holdings[s] else 0
  }

  /** `util_net_revenue`: revenue minus weighted risk and cost, each supplied
      by its model. */
  function NetRevenue(revenue: Dict<real> -> real, cost: (map<Symbol, int>, Dict<real>) -> real,
                      risk: Dict<real> -> real, last: map<Symbol, int>, target: Dict<real>): real
  {
    revenue(target) - RiskCoef * risk(target) - CostCoef * cost(last, target)
  }
}

=== FILE: orders.dfy ===
/** Task/order bookkeeping of `Strategy`: minting task and entrust ids,
    registering orders with the portfolio manager, forwarding them to the
    gateway, and cancelling every entrust of a task.

    The strategy's mutable attributes become an immutable `State` threaded
    through pure functions.  The portfolio manager and the gateway are not
    modelled: `pm.add_order` and every gateway call are appended to one
    event log, and the gateway's synchronous reply is an oracle. */
module TaskOrders {
  import opened PyBase
  import opened SequenceIds

  datatype Action = Buy | Sell

  datatype Order = Order(
    symbol: Symbol,
    action: Action,
    price: real,
    size: int,
    entrustDate: nat,
    entrustTime: int,
    taskId: nat,
    entrustNo: nat,
    priceTarget: string)

  /** `Order.new_order(symbol, action, price, size, date, time)`: no ids yet. */
  function NewOrder(symbol: Symbol, action: Action, price: real, size: int, date: nat, time: int): Order
  {
    Order(symbol, action, price, size, date, time, 0, 0, "")
  }

  /** Give an order its task id and entrust number, leaving the rest alone. */
  function Stamp(o: Order, taskId: nat, entrustNo: nat): Order
  {
    o.(taskId := taskId, entrustNo := entrustNo)
  }

  datatype GatewayCall = PlaceCall(order: Order) | CancelCall(entrustNo: nat)

  /** Side effects in the order they happen: `pm.add_order` or a gateway call. */
  datatype Event = Registered(order: Order) | Sent(call: GatewayCall)

  /** The gateway's error message for the call recorded at a log position
      ("" means accepted). */
  type Gateway = (nat, GatewayCall) -> string

  datatype Context = Context(tradeDate: nat, universe: seq<Symbol>)

  datatype State = State(
    ctx: Context,
    ids: SeqGen,
    taskMap: map<nat, seq<nat>>,
    log: seq<Event>)

  /** A strategy before its first order. */
  function Initial(ctx: Context): (s: State)
    ensures WellFormed(s)
  {
    State(ctx, map[], map[], [])
  }

  /** Reading `task_id_map[t]` of a `defaultdict(list)`. */
  function Entrusts(m: map<nat, seq<nat>>, t: nat): seq<nat>
  {
    if t in m then m[t] else []
  }

  /** The state's invariant: every recorded task id and entrust number was
      minted by the state's own counters on its trade date. */
  predicate WellFormed(s: State)
  {
    forall t :: t in s.taskMap ==>
      && 0 < t <= MakeId(s.ctx.tradeDate, Issued(s.ids, TaskKey))
      && forall i :: 0 <= i < |s.taskMap[t]| ==>
           0 < s.taskMap[t][i] <= MakeId(s.ctx.tradeDate, Issued(s.ids, EntrustKey))
  }

  /** `_get_next_num(key)` on the state's own generator and date. */
  function Mint(s: State, key: string): (r: (State, nat))
    ensures r.0 == s.(ids := r.0.ids)
    ensures r.1 == MakeId(s.ctx.tradeDate, Issued(s.ids, key) + 1)
    ensures Issued(r.0.ids, key) == Issued(s.ids, key) + 1
    ensures forall k :: k != key ==> Issued(r.0.ids, k) == Issued(s.ids, k)
  {
    var (g, id) := NextNum(s.ids, key, s.ctx.tradeDate);
    (s.(ids := g), id)
  }

  /** The next task id / entrust number the state would mint. */
  function NextTaskId(s: State): nat
  {
    MakeId(s.ctx.tradeDate, Issued(s.ids, TaskKey) + 1)
  }

  function NextEntrustNo(s: State, offset: nat): nat
  {
    MakeId(s.ctx.tradeDate, Issued(s.ids, EntrustKey) + offset + 1)
  }

  /** The task id returned when the gateway rejects a single order (`'0'`). */
  const FailedTaskId: nat := 0

  /** `(task_id, err_msg)` as returned to the caller. */
  datatype Reply = Reply(taskId: nat, errMsg: string)

  /** `place_order(symbol, action, price, size, algo)`. */
  function PlaceOrder(s: State, symbol: Symbol, action: Action, price: real, size: int,
                      algo: string, gw: Gateway): (r: Result<(State, Reply)>)
    ensures r.Err? <==> algo != ""
    ensures r.Err? ==> r.error == NotImplementedError("algo " + algo)
    ensures r.Ok? ==>
      var (s', reply) := r.value;
      var t, e := NextTaskId(s), NextEntrustNo(s, 0);
      var o := Stamp(NewOrder(symbol, action, price, size, s.ctx.tradeDate, 0), t, e);
      var err := gw(|s.log| + 1, PlaceCall(o));
      && s'.ctx == s.ctx
      && Issued(s'.ids, TaskKey) == Issued(s.ids, TaskKey) + 1
      && Issued(s'.ids, EntrustKey) == Issued(s.ids, EntrustKey) + 1
      && (forall k :: k != TaskKey && k != EntrustKey ==> Issued(s'.ids, k) == Issued(s.ids, k))
      && s'.taskMap == s.taskMap[t := Entrusts(s.taskMap, t) + [e]]
      && s'.log == s.log + [Registered(o), Sent(PlaceCall(o))]
      && reply == (if err != "" then Reply(FailedTaskId, err) else Reply(t, ""))
  {
    if algo != "" then Err(NotImplementedError("algo " + algo))
    else
      var order := NewOrder(symbol, action, price, size, s.ctx.tradeDate, 0);
      var (s1, t) := Mint(s, TaskKey);
      var (s2, e) := Mint(s1, EntrustKey);
      var o := Stamp(order, t, e);
      var s3 := s2.(taskMap := s2.taskMap[t := Entrusts(s2.taskMap, t) + [e]]);
      var s4 := s3.(log := s3.log + [Registered(o)]);
      var err := gw(|s4.log|, PlaceCall(o));
      var s5 := s4.(log := s4.log + [Sent(PlaceCall(o))]);
      if err != "" then Ok((s5, Reply(FailedTaskId, err)))
      else Ok((s5, Reply(t, err)))
  }

  /** The orders of a batch as submitted: one shared task id and the entrust
      numbers `first + 1, first + 2, …` of the trade date, in input order. */
  function StampAll(orders: seq<Order>, taskId: nat, tradeDate: nat, first: nat): (r: seq<Order>)
    ensures |r| == |orders|
  {
    seq(|orders|, i requires 0 <= i < |orders| =>
      Stamp(orders[i], taskId, MakeId(tradeDate, first + i + 1)))
  }

  /** The entrust numbers `first + 1 … first + n` of a trade date. */
  function EntrustRange(tradeDate: nat, first: nat, n: nat): (r: seq<nat>)
    ensures |r| == n
    ensures forall i :: 0 <= i < n ==> r[i] == MakeId(tradeDate, first + i + 1)
    decreases n
  {
    if n == 0 then [] else [MakeId(tradeDate, first + 1)] + EntrustRange(tradeDate, first + 1, n - 1)
  }

  /** The events of submitting a batch: each order is registered, then sent. */
  function BatchEvents(os: seq<Order>): seq<Event>
  {
    if |os| == 0 then []
    else [Registered(os[0]), Sent(PlaceCall(os[0]))] + BatchEvents(os[1..])
  }

  /** The gateway's replies to a batch whose events start at log position `base`. */
  function BatchReplies(gw: Gateway, base: nat, os: seq<Order>): (r: seq<string>)
    ensures |r| == |os|
    decreases |os|
  {
    if |os| == 0 then []
    else [gw(base + 1, PlaceCall(os[0]))] + BatchReplies(gw, base + 2, os[1..])
  }

  /** One pass of the loop of `place_batch_order`: mint an entrust number,
      register the stamped order, send it, record the number under the task. */
  function SubmitOne(s: State, taskId: nat, order: Order, gw: Gateway): (r: (State, string))
    ensures r.0.ctx == s.ctx
    ensures Issued(r.0.ids, EntrustKey) == Issued(s.ids, EntrustKey) + 1
    ensures forall k :: k != EntrustKey ==> Issued(r.0.ids, k) == Issued(s.ids, k)
    ensures var o := Stamp(order, taskId, NextEntrustNo(s, 0));
      && r.0.taskMap == s.taskMap[taskId := Entrusts(s.taskMap, taskId) + [NextEntrustNo(s, 0)]]
      && r.0.log == s.log + [Registered(o), Sent(PlaceCall(o))]
      && r.1 == gw(|s.log| + 1, PlaceCall(o))
  {
    var (s1, e) := Mint(s, EntrustKey);
    var o := Stamp(order, taskId, e);
    var s2 := s1.(log := s1.log + [Registered(o)]);
    var err := gw(|s2.log|, PlaceCall(o));
    var s3 := s2.(log := s2.log + [Sent(PlaceCall(o))],
                  taskMap := s2.taskMap[taskId := Entrusts(s2.taskMap, taskId) + [e]]);
    (s3, err)
  }

  /** The loop of `place_batch_order` over the remaining orders. */
  function SubmitEach(s: State, taskId: nat, orders: seq<Order>, gw: Gateway): (r: (State, seq<string>))
    ensures r.0.ctx == s.ctx
    ensures Issued(r.0.ids, EntrustKey) == Issued(s.ids, EntrustKey) + |orders|
    ensures forall k :: k != EntrustKey ==> Issued(r.0.ids, k) == Issued(s.ids, k)
    ensures r.0.taskMap ==
      if |orders| == 0 then s.taskMap
      else s.taskMap[taskId := Entrusts(s.taskMap, taskId)
                     + EntrustRange(s.ctx.tradeDate, Issued(s.ids, EntrustKey), |orders|)]
    ensures r.0.log ==
      s.log + BatchEvents(StampAll(orders, taskId, s.ctx.tradeDate, Issued(s.ids, EntrustKey)))
    ensures r.1 ==
      BatchReplies(gw, |s.log|, StampAll(orders, taskId, s.ctx.tradeDate, Issued(s.ids, EntrustKey)))
    decreases |orders|
  {
    if |orders| == 0 then (s, [])
    else
      var date, c0 := s.ctx.tradeDate, Issued(s.ids, EntrustKey);
      var (s3, err) := SubmitOne(s, taskId, orders[0], gw);
      var (s4, errs) := SubmitEach(s3, taskId, orders[1..], gw);
      var o := Stamp(orders[0], taskId, MakeId(date, c0 + 1));
      var rest := StampAll(orders[1..], taskId, date, c0 + 1);
      StampAllCons(orders, taskId, date, c0);
      BatchEventsCons(o, rest);
      BatchRepliesCons(gw, |s.log|, o, rest);
      EntrustsAppend(s.taskMap, taskId, date, c0, |orders|);
      (s4, [err] + errs)
  }

  /** Recording the first entrust number and then the rest records the
      whole range. */
  lemma EntrustsAppend(m: map<nat, seq<nat>>, t: nat, date: nat, c0: nat, n: nat)
    requires n > 0
    ensures var m1 := m[t := Entrusts(m, t) + [MakeId(date, c0 + 1)]];
      (if n == 1 then m1 else m1[t := Entrusts(m1, t) + EntrustRange(date, c0 + 1, n - 1)])
        == m[t := Entrusts(m, t) + EntrustRange(date, c0, n)]
  {
    var before := Entrusts(m, t);
    var e := MakeId(date, c0 + 1);
    assert EntrustRange(date, c0, n) == [e] + EntrustRange(date, c0 + 1, n - 1);
    if n > 1 {
      assert (before + [e]) + EntrustRange(date, c0 + 1, n - 1) == before + EntrustRange(date, c0, n);
    } else {
      assert EntrustRange(date, c0, n) == [e];
    }
  }

  lemma BatchEventsCons(o: Order, rest: seq<Order>)
    ensures BatchEvents([o] + rest) == [Registered(o), Sent(PlaceCall(o))] + BatchEvents(rest)
  {
    assert ([o] + rest)[1..] == rest;
  }

  lemma BatchRepliesCons(gw: Gateway, base: nat, o: Order, rest: seq<Order>)
    ensures BatchReplies(gw, base, [o] + rest) == [gw(base + 1, PlaceCall(o))] + BatchReplies(gw, base + 2, rest)
  {
    assert ([o] + rest)[1..] == rest;
  }

  lemma StampAllCons(orders: seq<Order>, taskId: nat, tradeDate: nat, first: nat)
    requires |orders| > 0
    ensures StampAll(orders, taskId, tradeDate, first)
         == [Stamp(orders[0], taskId, MakeId(tradeDate, first + 1))]
            + StampAll(orders[1..], taskId, tradeDate, first + 1)
  {
  }

  /** `place_batch_order(orders)`: one task id for the whole batch, one
      entrust number per order, every reply joined with ','. */
  function PlaceBatchOrder(s: State, orders: seq<Order>, gw: Gateway): (r: (State, Reply))
    ensures r.0.ctx == s.ctx
    ensures r.1.taskId == NextTaskId(s)
    ensures Issued(r.0.ids, TaskKey) == Issued(s.ids, TaskKey) + 1
    ensures Issued(r.0.ids, EntrustKey) == Issued(s.ids, EntrustKey) + |orders|
    ensures forall k :: k != TaskKey && k != EntrustKey ==> Issued(r.0.ids, k) == Issued(s.ids, k)
    ensures |orders| == 0 ==> r.0.taskMap == s.taskMap
    ensures |orders| > 0 ==> r.0.taskMap == s.taskMap[r.1.taskId :=
      Entrusts(s.taskMap, r.1.taskId)
      + EntrustRange(s.ctx.tradeDate, Issued(s.ids, EntrustKey), |orders|)]
    ensures r.0.log == s.log
      + BatchEvents(StampAll(orders, r.1.taskId, s.ctx.tradeDate, Issued(s.ids, EntrustKey)))
    ensures r.1.errMsg == Join(",",
      BatchReplies(gw, |s.log|, StampAll(orders, r.1.taskId, s.ctx.tradeDate, Issued(s.ids, EntrustKey))))
  {
    var (s1, t) := Mint(s, TaskKey);
    var (s2, errs) := SubmitEach(s1, t, orders, gw);
    (s2, Reply(t, Join(",", errs)))
  }

  /** The gateway calls a cancellation makes, one per entrust number. */
  function CancelEvents(entrusts: seq<nat>): (r: seq<Event>)
    ensures |r| == |entrusts|
  {
    seq(|entrusts|, i requires 0 <= i < |entrusts| => Sent(CancelCall(entrusts[i])))
  }

  function CancelReplies(gw: Gateway, base: nat, entrusts: seq<nat>): (r: seq<string>)
    ensures |r| == |entrusts|
  {
    seq(|entrusts|, i requires 0 <= i < |entrusts| => gw(base + i, CancelCall(entrusts[i])))
  }

  /** The loop of `cancel_order`: one gateway cancel per entrust number, in order. */
  function CancelEach(s: State, entrusts: seq<nat>, gw: Gateway): (r: (State, seq<string>))
    ensures r.0 == s.(log := s.log + CancelEvents(entrusts))
    ensures r.1 == CancelReplies(gw, |s.log|, entrusts)
    decreases |entrusts|
  {
    if |entrusts| == 0 then (s, [])
    else
      var err := gw(|s.log|, CancelCall(entrusts[0]));
      var s1 := s.(log := s.log + [Sent(CancelCall(entrusts[0]))]);
      var (s2, errs) := CancelEach(s1, entrusts[1..], gw);
      assert CancelEvents(entrusts) == [Sent(CancelCall(entrusts[0]))] + CancelEvents(entrusts[1..]);
      assert CancelReplies(gw, |s.log|, entrusts)
          == [err] + CancelReplies(gw, |s.log| + 1, entrusts[1..]);
      (s2, [err] + errs)
  }

  datatype CancelResult = CancelResult(ok: bool, errMsg: string)

  /** `cancel_order(task_id)`. */
  function CancelOrder(s: State, taskId: nat, gw: Gateway): (r: (State, CancelResult))
    ensures r.0.ctx == s.ctx && r.0.ids == s.ids && r.0.taskMap == s.taskMap
    ensures taskId !in s.taskMap ==>
      r.0 == s && r.1 == CancelResult(false, "No task id " + NatToString(taskId))
    ensures taskId in s.taskMap ==>
      var entrusts := s.taskMap[taskId];
      var replies := CancelReplies(gw, |s.log|, entrusts);
      && r.0.log == s.log + CancelEvents(entrusts)
      && (r.1.ok <==> forall i :: 0 <= i < |entrusts| ==> replies[i] == "")
      && r.1.errMsg == (if r.1.ok then "" else Join(",", replies))
  {
    if taskId !in s.taskMap then (s, CancelResult(false, "No task id " + NatToString(taskId)))
    else
      var (s', errs) := CancelEach(s, s.taskMap[taskId], gw);
      if exists i :: 0 <= i < |errs| && errs[i] != "" then (s', CancelResult(false, Join(",", errs)))
      else (s', CancelResult(true, ""))
  }
}

=== FILE: orders_props.dfy ===
/** Properties of the task/order bookkeeping that relate several calls. */
module TaskOrderFacts {
  import opened PyBase
  import opened SequenceIds
  import opened TaskOrders

  /** In a batch's events every order is registered immediately before it is
      sent to the gateway. */
  lemma {:induction false} BatchEventsAt(os: seq<Order>, i: nat)
    requires i < |os|
    ensures |BatchEvents(os)| == 2 * |os|
    ensures BatchEvents(os)[2 * i] == Registered(os[i])
    ensures BatchEvents(os)[2 * i + 1] == Sent(PlaceCall(os[i]))
    decreases |os|
  {
    if i > 0 {
      BatchEventsAt(os[1..], i - 1);
    } else if |os| > 1 {
      BatchEventsAt(os[1..], 0);
    }
  }

  /** The i-th message of a batch is the gateway's reply to the i-th order,
      sent at log position base + 2i + 1. */
  lemma {:induction false} BatchRepliesAt(gw: Gateway, base: nat, os: seq<Order>, i: nat)
    requires i < |os|
    ensures |BatchReplies(gw, base, os)| == |os|
    ensures BatchReplies(gw, base, os)[i] == gw(base + 2 * i + 1, PlaceCall(os[i]))
    decreases |os|
  {
    if i > 0 {
      BatchRepliesAt(gw, base + 2, os[1..], i - 1);
    } else if |os| > 1 {
      BatchRepliesAt(gw, base + 2, os[1..], 0);
    }
  }

  lemma MakeIdMonotone(d: nat, c: nat, c': nat)
    requires c <= c'
    ensures MakeId(d, c) <= MakeId(d, c')
  {
  }

  /** `place_order` keeps every recorded id within what the counters minted. */
  lemma PlaceOrderKeepsWellFormed(s: State, symbol: Symbol, action: Action, price: real,
                                  size: int, algo: string, gw: Gateway)
    requires WellFormed(s)
    requires PlaceOrder(s, symbol, action, price, size, algo, gw).Ok?
    ensures WellFormed(PlaceOrder(s, symbol, action, price, size, algo, gw).value.0)
  {
    var s' := PlaceOrder(s, symbol, action, price, size, algo, gw).value.0;
    var d := s.ctx.tradeDate;
    MakeIdMonotone(d, Issued(s.ids, TaskKey), Issued(s'.ids, TaskKey));
    MakeIdMonotone(d, Issued(s.ids, EntrustKey), Issued(s'.ids, EntrustKey));
  }

  /** So does `place_batch_order`. */
  lemma PlaceBatchKeepsWellFormed(s: State, orders: seq<Order>, gw: Gateway)
    requires WellFormed(s)
    ensures WellFormed(PlaceBatchOrder(s, orders, gw).0)
  {
    var (s', reply) := PlaceBatchOrder(s, orders, gw);
    var d := s.ctx.tradeDate;
    MakeIdMonotone(d, Issued(s.ids, TaskKey), Issued(s'.ids, TaskKey));
    MakeIdMonotone(d, Issued(s.ids, EntrustKey), Issued(s'.ids, EntrustKey));
    if |orders| > 0 {
      var newIds := EntrustRange(d, Issued(s.ids, EntrustKey), |orders|);
      forall i | 0 <= i < |newIds|
        ensures 0 < newIds[i] <= MakeId(d, Issued(s'.ids, EntrustKey))
      {
        MakeIdMonotone(d, Issued(s.ids, EntrustKey) + i + 1, Issued(s'.ids, EntrustKey));
      }
    }
  }

  /** A batch of N > 0 orders opens a task that did not exist before and
      records exactly N distinct entrust numbers under it, each newer than
      any entrust number recorded before. */
  lemma BatchOpensFreshTask(s: State, orders: seq<Order>, gw: Gateway)
    requires WellFormed(s)
    requires |orders| > 0
    ensures var (s', reply) := PlaceBatchOrder(s, orders, gw);
      && reply.taskId !in s.taskMap
      && reply.taskId in s'.taskMap
      && |s'.taskMap[reply.taskId]| == |orders|
      && (forall i, j :: 0 <= i < j < |orders| ==>
            s'.taskMap[reply.taskId][i] < s'.taskMap[reply.taskId][j])
      && (forall t, i, j :: t in s.taskMap && 0 <= i < |s.taskMap[t]| && 0 <= j < |orders| ==>
            s.taskMap[t][i] < s'.taskMap[reply.taskId][j])
  {
    var (s', reply) := PlaceBatchOrder(s, orders, gw);
    assert reply.taskId !in s.taskMap;
    assert s'.taskMap[reply.taskId]
        == EntrustRange(s.ctx.tradeDate, Issued(s.ids, EntrustKey), |orders|);
  }

  /** With an empty batch a task id is still minted but nothing is recorded:
      the returned task id is unknown to a later `cancel_order`. */
  lemma EmptyBatchLeavesNoTask(s: State, gw: Gateway, gw': Gateway)
    requires WellFormed(s)
    ensures var (s', reply) := PlaceBatchOrder(s, [], gw);
      && Issued(s'.ids, TaskKey) == Issued(s.ids, TaskKey) + 1
      && s'.taskMap == s.taskMap
      && s'.log == s.log
      && reply.errMsg == ""
      && CancelOrder(s', reply.taskId, gw').1.ok == false
  {
    var (s', reply) := PlaceBatchOrder(s, [], gw);
    assert StampAll([], reply.taskId, s.ctx.tradeDate, Issued(s.ids, EntrustKey)) == [];
  }

  /** When the gateway accepts all N > 0 orders of a batch the message is
      still N-1 commas, not the empty string. */
  lemma BatchAcceptedMessageIsCommas(s: State, orders: seq<Order>, gw: Gateway)
    requires |orders| > 0
    requires forall n, c :: gw(n, c) == ""
    ensures PlaceBatchOrder(s, orders, gw).1.errMsg == seq(|orders| - 1, _ => ',')
  {
    var t := NextTaskId(s);
    var os := StampAll(orders, t, s.ctx.tradeDate, Issued(s.ids, EntrustKey));
    var replies := BatchReplies(gw, |s.log|, os);
    BatchRepliesAt(gw, |s.log|, os, 0);
    forall i | 0 <= i < |replies|
      ensures replies[i] == ""
    {
      BatchRepliesAt(gw, |s.log|, os, i);
    }
    JoinOfEmpties(replies);
  }

  /** Several gateway replies summarised the way `cancel_order` does it:
      empty when every reply is empty, otherwise all of them joined with
      commas. */
  function ErrorSummary(replies: seq<string>): (r: string)
    ensures r == "" <==> forall i :: 0 <= i < |replies| ==> replies[i] == ""
    ensures r != "" ==> r == Join(",", replies)
  {
    if forall i :: 0 <= i < |replies| ==> replies[i] == "" then ""
    else
      assert Join(",", replies) != "" by {
        var i :| 0 <= i < |replies| && replies[i] != "";
        JoinEmptyOnlyIfPartsEmpty(",", replies, i);
      }
      Join(",", replies)
  }

  /** The gateway's reply to the i-th order of a batch. */
  function BatchReply(s: State, orders: seq<Order>, gw: Gateway, i: nat): string
    requires i < |orders|
  {
    var os := StampAll(orders, NextTaskId(s), s.ctx.tradeDate, Issued(s.ids, EntrustKey));
    BatchReplies(gw, |s.log|, os)[i]
  }

  /** `place_batch_order` with its message summarised like `cancel_order`'s,
      so that an empty message means every order was accepted.  Everything
      else is as written. */
  function PlaceBatchOrderIntended(s: State, orders: seq<Order>, gw: Gateway): (r: (State, Reply))
    ensures r.0 == PlaceBatchOrder(s, orders, gw).0
    ensures r.1.taskId == NextTaskId(s)
    ensures r.1.errMsg == "" <==> forall i :: 0 <= i < |orders| ==> BatchReply(s, orders, gw, i) == ""
    ensures r.1.errMsg != "" ==> r.1.errMsg == PlaceBatchOrder(s, orders, gw).1.errMsg
  {
    var replies := BatchReplies(gw, |s.log|,
      StampAll(orders, NextTaskId(s), s.ctx.tradeDate, Issued(s.ids, EntrustKey)));
    var msg := ErrorSummary(replies);
    assert forall i :: 0 <= i < |orders| ==> BatchReply(s, orders, gw, i) == replies[i];
    (PlaceBatchOrder(s, orders, gw).0, Reply(NextTaskId(s), msg))
  }

  /** With the summarised message, a batch the gateway accepts in full
      reports the empty message. */
  lemma BatchAcceptedMessageIsEmpty(s: State, orders: seq<Order>, gw: Gateway)
    requires forall n, c :: gw(n, c) == ""
    ensures PlaceBatchOrderIntended(s, orders, gw).1.errMsg == ""
  {
    var os := StampAll(orders, NextTaskId(s), s.ctx.tradeDate, Issued(s.ids, EntrustKey));
    var replies := BatchReplies(gw, |s.log|, os);
    if |os| > 0 {
      BatchRepliesAt(gw, |s.log|, os, 0);
    }
    forall i | 0 <= i < |replies|
      ensures replies[i] == ""
    {
      BatchRepliesAt(gw, |s.log|, os, i);
    }
  }

  /** A rejected `place_order` returns the task id '0', which no task has:
      the order stays registered and recorded, yet cannot be cancelled
      through the returned id, and trying makes no gateway call. */
  lemma RejectedOrderCannotBeCancelled(s: State, symbol: Symbol, action: Action, price: real,
                                       size: int, gw: Gateway, gw': Gateway)
    requires WellFormed(s)
    requires PlaceOrder(s, symbol, action, price, size, "", gw).value.1.errMsg != ""
    ensures var (s', reply) := PlaceOrder(s, symbol, action, price, size, "", gw).value;
      && reply.taskId == FailedTaskId
      && s'.log[|s.log|].Registered?
      && NextTaskId(s) in s'.taskMap
      && CancelOrder(s', reply.taskId, gw') == (s', CancelResult(false, "No task id 0"))
  {
    var (s', reply) := PlaceOrder(s, symbol, action, price, size, "", gw).value;
    PlaceOrderKeepsWellFormed(s, symbol, action, price, size, "", gw);
    assert FailedTaskId !in s'.taskMap;
    assert DigitChar(0) == '0';
    assert NatToString(0) == "0";
    assert reply.taskId == FailedTaskId;
    var c := CancelOrder(s', FailedTaskId, gw');
    assert c.0 == s' && c.1 == CancelResult(false, "No task id " + NatToString(0));
    assert "No task id " + "0" == "No task id 0";
  }

  /** After an accepted `place_order`, cancelling the returned task sends
      exactly one cancel, for the order's own entrust number. */
  lemma AcceptedOrderCancelsItsEntrust(s: State, symbol: Symbol, action: Action, price: real,
                                       size: int, gw: Gateway, gw': Gateway)
    requires WellFormed(s)
    requires PlaceOrder(s, symbol, action, price, size, "", gw).value.1.errMsg == ""
    ensures var (s', reply) := PlaceOrder(s, symbol, action, price, size, "", gw).value;
      && reply.taskId == NextTaskId(s)
      && CancelOrder(s', reply.taskId, gw').0.log
         == s'.log + [Sent(CancelCall(NextEntrustNo(s, 0)))]
  {
    var (s', reply) := PlaceOrder(s, symbol, action, price, size, "", gw).value;
    assert NextTaskId(s) !in s.taskMap;
    assert s'.taskMap[reply.taskId] == [NextEntrustNo(s, 0)];
  }

  /** A failed cancellation always explains itself with a non-empty message. */
  lemma CancelFailureHasMessage(s: State, taskId: nat, gw: Gateway)
    ensures !CancelOrder(s, taskId, gw).1.ok ==> CancelOrder(s, taskId, gw).1.errMsg != ""
  {
    var r := CancelOrder(s, taskId, gw);
    if !r.1.ok && taskId in s.taskMap {
      var entrusts := s.taskMap[taskId];
      var replies := CancelReplies(gw, |s.log|, entrusts);
      var i :| 0 <= i < |entrusts| && replies[i] != "";
      JoinEmptyOnlyIfPartsEmpty(",", replies, i);
    }
  }

  /** Cancelling never touches the task map or the counters, so cancelling
      twice cancels the same entrust numbers again. */
  lemma CancelIsRepeatable(s: State, taskId: nat, gw: Gateway, gw': Gateway)
    requires taskId in s.taskMap
    ensures var s1 := CancelOrder(s, taskId, gw).0;
      CancelOrder(s1, taskId, gw').0.log
        == s.log + CancelEvents(s.taskMap[taskId]) + CancelEvents(s.taskMap[taskId])
  {
  }
}

=== FILE: pybase.dfy ===
/** Python-level vocabulary shared by the strategy model: optional values,
    the exceptions the strategy raises, `str.join`, `str(int)` and
    Python 2's `round`. */
module PyBase {

  type Symbol = string

  datatype Option<+T> = None | Some(value: T)

  /** The exceptions raised (or provoked) by the strategy code. */
  datatype PyError =
    | NotImplementedError(msg: string)
    | ValueError(msg: string)
    | AssertionError
    | KeyError(key: string)
    | TypeError(msg: string)
    | ZeroDivisionError
    | AttributeError(msg: string)

  /** A computation that either returns a value or raises. */
  datatype Result<+T> = Ok(value: T) | Err(error: PyError)

  function Abs(x: real): real
  {
    if x < 0.0 then -x else x
  }

  /** Python's `sep.join(parts)`. */
  function Join(sep: string, parts: seq<string>): string
  {
    if |parts| == 0 then ""
    else if |parts| == 1 then parts[0]
    else parts[0] + sep + Join(sep, parts[1..])
  }

  function TotalLength(parts: seq<string>): nat
  {
    if |parts| == 0 then 0 else |parts[0]| + TotalLength(parts[1..])
  }

  /** The joined text holds every part and one separator between neighbours. */
  lemma {:induction false} JoinLength(sep: string, parts: seq<string>)
    requires |parts| > 0
    ensures |Join(sep, parts)| == TotalLength(parts) + (|parts| - 1) * |sep|
  {
    if |parts| > 1 {
      JoinLength(sep, parts[1..]);
    }
  }

  /** Joining N empty messages with ',' gives exactly N-1 commas. */
  lemma {:induction false} JoinOfEmpties(parts: seq<string>)
    requires |parts| > 0
    requires forall i :: 0 <= i < |parts| ==> parts[i] == ""
    ensures Join(",", parts) == seq(|parts| - 1, _ => ',')
  {
    if |parts| > 1 {
      JoinOfEmpties(parts[1..]);
      assert parts[0] == "";
    }
  }

  /** A joined message is empty only if every part is empty. */
  lemma {:induction false} JoinEmptyOnlyIfPartsEmpty(sep: string, parts: seq<string>, i: nat)
    requires i < |parts| && parts[i] != ""
    ensures Join(sep, parts) != ""
  {
    if |parts| > 1 && i > 0 {
      JoinEmptyOnlyIfPartsEmpty(sep, parts[1..], i - 1);
    }
  }

  function DigitChar(d: nat): char
    requires d < 10
  {
    "0123456789"[d]
  }

  predicate IsDigit(c: char)
  {
    '0' <= c <= '9'
  }

  /** Python's `str(n)` for a non-negative integer. */
  function NatToString(n: nat): (r: string)
    ensures |r| > 0
    ensures forall i :: 0 <= i < |r| ==> IsDigit(r[i])
  {
    if n < 10 then [DigitChar(n)] else NatToString(n / 10) + [DigitChar(n % 10)]
  }

  /** Python's `int(s)` on a string of decimal digits. */
  function ParseNat(s: string): nat
    requires forall i :: 0 <= i < |s| ==> IsDigit(s[i])
  {
    if |s| == 0 then 0
    else ParseNat(s[..|s| - 1]) * 10 + DigitValue(s[|s| - 1])
  }

  function DigitValue(c: char): nat
    requires IsDigit(c)
  {
    (c as int) - ('0' as int)
  }

  /** `str` on ids is injective: the decimal text gives the number back. */
  lemma {:induction false} NatToStringRoundTrip(n: nat)
    ensures ParseNat(NatToString(n)) == n
  {
    var s := NatToString(n);
    if n >= 10 {
      NatToStringRoundTrip(n / 10);
      assert s[..|s| - 1] == NatToString(n / 10);
    }
  }

  /** Python 2's `round(x, 0)`: nearest integer, halves rounded away from zero. */
  function Round(x: real): (r: int)
    ensures x - 0.5 <= r as real <= x + 0.5
    ensures x >= 0.0 ==> x - 0.5 < r as real
    ensures x < 0.0 ==> r as real < x + 0.5
  {
    if x >= 0.0 then (x + 0.5).Floor else -((-x + 0.5).Floor)
  }

  /** No integer is closer to x than `Round(x)`. */
  lemma RoundIsNearest(x: real, n: int)
    ensures Abs(x - Round(x) as real) <= Abs(x - n as real)
  {
    var r := Round(x);
    if n > r {
      assert x - n as real <= x - r as real - 1.0;
    } else if n < r {
      assert x - n as real >= x - r as real + 1.0;
    }
  }

  /** Ties go away from zero, so rounding is symmetric about zero. */
  lemma RoundIsOdd(x: real)
    ensures Round(-x) == -Round(x)
  {
  }
}

=== FILE: translate.dfy ===
/** `AlphaStrategy.generate_weights_order`: turn target weights and a cash
    budget (the turnover) into one goal position per weighted symbol. */
module WeightOrders {
  import opened PyBase
  import opened Dicts
  import opened PortfolioWeights
  import opened GoalSubmit

  /** Execution algorithms the method accepts. */
  const SupportedAlgos: set<string> := {"close", "vwap"}

  const UnsupportedAlgoMsg: string := "Currently we only suport order at close price."
  const NoneNotIterableMsg: string := "argument of type 'NoneType' is not iterable"

  /** The shares in a number of board lots of 100 shares. */
  function LotShares(lots: int): int
  {
    100 * lots
  }

  /** The unit a goal size of a traded symbol is counted in: lots as
      written, shares as `goal_portfolio` reads it. */
  datatype SizeUnit = InLots | InShares

  function GoalSize(unit: SizeUnit, lots: int): int
  {
    match unit
    case InLots => lots
    case InShares => LotShares(lots)
  }

  /** Shares per unit of goal size. */
  function SharesPerUnit(unit: SizeUnit): real
  {
    match unit
    case InLots => 100.0
    case InShares => 1.0
  }

  /** What every per-symbol step reads. */
  datatype OrderInputs = OrderInputs(
    turnover: real,
    prices: map<Symbol, real>,
    suspended: seq<Symbol>,
    holdings: Holdings,
    unit: SizeUnit)

  /** The goal for one symbol, the lots it trades and the cash it uses. */
  datatype Step = Step(goal: GoalPosition, lots: int, spent: real)

  /** `w * turnover / price`: the unrounded number of shares. */
  function SharesRaw(w: real, turnover: real, price: real): real
    requires price != 0.0
  {
    w * turnover / price
  }

  /** lots is a whole number of lots whose share count is within half a lot
      of the raw share count; a raw count exactly halfway between two whole
      lots goes to the one farther from zero, as Python 2's `round` does. */
  predicate NearestLots(lots: int, raw: real)
  {
    && -50.0 <= LotShares(lots) as real - raw <= 50.0
    && (raw >= 0.0 ==> -50.0 < LotShares(lots) as real - raw)
    && (raw < 0.0 ==> LotShares(lots) as real - raw < 50.0)
  }

  /** At most one lot count is nearest, ties included. */
  lemma NearestLotsUnique(a: int, b: int, raw: real)
    requires NearestLots(a, raw) && NearestLots(b, raw)
    ensures a == b
  {
  }

  /** One iteration of the loop over `weights_dic`. */
  function GoalFor(inp: OrderInputs, sym: Symbol, w: real): (r: Result<Step>)
    ensures r.Ok? ==> r.value.goal.symbol == sym
    ensures sym in inp.suspended ==>
      r == Ok(Step(GoalPosition(sym, HeldSize(inp.holdings, sym)), 0, 0.0))
    ensures sym !in inp.suspended && Abs(w) < Eps ==> r == Ok(Step(GoalPosition(sym, 0), 0, 0.0))
    ensures sym !in inp.suspended && Abs(w) >= Eps && sym !in inp.prices ==> r == Err(KeyError(sym))
    ensures sym !in inp.suspended && Abs(w) >= Eps && sym in inp.prices && inp.prices[sym] == 0.0 ==>
      r == Err(ZeroDivisionError)
    ensures sym !in inp.suspended && Abs(w) >= Eps && sym in inp.prices && inp.prices[sym] != 0.0 ==>
      && r.Ok?
      && NearestLots(r.value.lots, SharesRaw(w, inp.turnover, inp.prices[sym]))
      && r.value.goal.size == GoalSize(inp.unit, r.value.lots)
      && r.value.spent == LotShares(r.value.lots) as real * inp.prices[sym]
  {
    if sym in inp.suspended then
      Ok(Step(GoalPosition(sym, HeldSize(inp.holdings, sym)), 0, 0.0))
    else if Abs(w) < Eps then
      Ok(Step(GoalPosition(sym, 0), 0, 0.0))
    else if sym !in inp.prices then
      Err(KeyError(sym))
    else if inp.prices[sym] == 0.0 then
      Err(ZeroDivisionError)
    else
      var price := inp.prices[sym];
      var raw := SharesRaw(w, inp.turnover, price);
      var lots := Round(raw / 100.0);
      Ok(Step(GoalPosition(sym, GoalSize(inp.unit, lots)), lots, LotShares(lots) as real * price))
  }

  /** The loop over all weights; the first failing symbol ends it. */
  function GoalsFor(inp: OrderInputs, weights: Dict<real>): (r: Result<seq<Step>>)
    ensures r.Ok? <==> forall i :: 0 <= i < |weights| ==> GoalFor(inp, weights[i].0, weights[i].1).Ok?
    ensures r.Ok? ==> |r.value| == |weights|
    ensures r.Ok? ==> forall i :: 0 <= i < |weights| ==>
      r.value[i] == GoalFor(inp, weights[i].0, weights[i].1).value
    ensures r.Err? ==> exists i :: (0 <= i < |weights|
      && GoalFor(inp, weights[i].0, weights[i].1) == Err(r.error)
      && forall j :: 0 <= j < i ==> GoalFor(inp, weights[j].0, weights[j].1).Ok?)
  {
    if |weights| == 0 then Ok([])
    else
      var first := GoalFor(inp, weights[0].0, weights[0].1);
      var rest := GoalsFor(inp, weights[1..]);
      assert forall i :: 1 <= i < |weights| ==> weights[i] == weights[1..][i - 1];
      if first.Err? then Err(first.error)
      else if rest.Err? then
        assert exists i :: (1 <= i < |weights|
          && GoalFor(inp, weights[i].0, weights[i].1) == Err(rest.error)
          && forall j :: 0 <= j < i ==> GoalFor(inp, weights[j].0, weights[j].1).Ok?) by {
          var k :| 0 <= k < |weights[1..]|
            && GoalFor(inp, weights[1..][k].0, weights[1..][k].1) == Err(rest.error)
            && forall j :: 0 <= j < k ==> GoalFor(inp, weights[1..][j].0, weights[1..][j].1).Ok?;
          assert GoalFor(inp, weights[k + 1].0, weights[k + 1].1) == Err(rest.error);
        }
        Err(rest.error)
      else Ok([first.value] + rest.value)
  }

  function Goals(steps: seq<Step>): (gs: seq<GoalPosition>)
    ensures |gs| == |steps|
    ensures forall i :: 0 <= i < |steps| ==> gs[i] == steps[i].goal
  {
    seq(|steps|, i requires 0 <= i < |steps| => steps[i].goal)
  }

  /** `cash_used`: the cash of all traded lots. */
  function TotalSpent(steps: seq<Step>): real
  {
    if |steps| == 0 then 0.0 else steps[0].spent + TotalSpent(steps[1..])
  }

  /** The common part of both variants once the algorithm is accepted. */
  function Translate(inp: OrderInputs, weights: Dict<real>): (r: Result<(seq<GoalPosition>, real)>)
    ensures r.Err? <==> GoalsFor(inp, weights).Err?
    ensures r.Err? ==> r.error == GoalsFor(inp, weights).error
    ensures r.Ok? ==>
      && |r.value.0| == |weights|
      && (forall i :: 0 <= i < |weights| ==> r.value.0[i] == GoalsFor(inp, weights).value[i].goal)
      && r.value.1 == inp.turnover - TotalSpent(GoalsFor(inp, weights).value)
  {
    match GoalsFor(inp, weights)
    case Err(e) => Err(e)
    case Ok(steps) => Ok((Goals(steps), inp.turnover - TotalSpent(steps)))
  }

  /** `generate_weights_order(weights_dic, turnover, prices, algo, suspensions)`
      as written: goals of traded symbols are in lots, and the default
      `suspensions=None` fails on the first membership test. */
  function GenerateWeightsOrder(weights: Dict<real>, turnover: real, prices: map<Symbol, real>, algo: string,
                                suspensions: Option<seq<Symbol>>, h: Holdings): (r: Result<(seq<GoalPosition>, real)>)
    ensures algo !in SupportedAlgos ==> r == Err(NotImplementedError(UnsupportedAlgoMsg))
    ensures algo in SupportedAlgos && suspensions.None? ==>
      r == if |weights| == 0 then Ok(([], turnover)) else Err(TypeError(NoneNotIterableMsg))
    ensures algo in SupportedAlgos && suspensions.Some? ==>
      r == Translate(OrderInputs(turnover, prices, suspensions.value, h, InLots), weights)
  {
    if algo !in SupportedAlgos then Err(NotImplementedError(UnsupportedAlgoMsg))
    else if suspensions.None? then
      if |weights| == 0 then Ok(([], turnover)) else Err(TypeError(NoneNotIterableMsg))
    else Translate(OrderInputs(turnover, prices, suspensions.value, h, InLots), weights)
  }

  /** The method as evidently intended: no suspensions when none are given,
      and every goal counted in shares, as `goal_portfolio` reads it. */
  function GenerateShareGoals(weights: Dict<real>, turnover: real, prices: map<Symbol, real>, algo: string,
                              suspensions: Option<seq<Symbol>>, h: Holdings): (r: Result<(seq<GoalPosition>, real)>)
    ensures algo !in SupportedAlgos ==> r == Err(NotImplementedError(UnsupportedAlgoMsg))
    ensures algo in SupportedAlgos ==>
      r == Translate(OrderInputs(turnover, prices, if suspensions.None? then [] else suspensions.value, h, InShares), weights)
  {
    if algo !in SupportedAlgos then Err(NotImplementedError(UnsupportedAlgoMsg))
    else
      var susp := if suspensions.None? then [] else suspensions.value;
      Translate(OrderInputs(turnover, prices, susp, h, InShares), weights)
  }

  // ---------------------------------------------------------------------
  // Properties of the translation

  /** The inputs under which every symbol is traded at a known positive
      price, with a weight that is either exactly zero or not negligible. */
  predicate AllTradable(inp: OrderInputs, weights: Dict<real>)
  {
    forall i :: 0 <= i < |weights| ==>
      && weights[i].0 !in inp.suspended
      && weights[i].0 in inp.prices
      && inp.prices[weights[i].0] > 0.0
      && (weights[i].1 == 0.0 || Abs(weights[i].1) >= Eps)
  }

  /** The cash the weights ask for: the sum of `w * turnover`. */
  function TargetSpend(weights: Dict<real>, turnover: real): real
  {
    if |weights| == 0 then 0.0 else weights[0].1 * turnover + TargetSpend(weights[1..], turnover)
  }

  /** Half a lot's worth of every symbol's price: the largest total rounding
      error. */
  function RoundingSlack(inp: OrderInputs, weights: Dict<real>): real
    requires AllTradable(inp, weights)
  {
    if |weights| == 0 then 0.0
    else
      assert AllTradable(inp, weights[1..]) by {
        assert forall i :: 1 <= i < |weights| ==> weights[i] == weights[1..][i - 1];
      }
      50.0 * inp.prices[weights[0].0] + RoundingSlack(inp, weights[1..])
  }

  lemma SharesRawTimesPrice(w: real, turnover: real, price: real)
    requires price != 0.0
    ensures SharesRaw(w, turnover, price) * price == w * turnover
  {
  }

  /** Rounding one symbol to the nearest lot misses its share of the turnover
      by at most half a lot's price. */
  lemma LotCostBound(lots: int, w: real, turnover: real, price: real)
    requires price > 0.0
    requires NearestLots(lots, SharesRaw(w, turnover, price))
    ensures -50.0 * price <= LotShares(lots) as real * price - w * turnover <= 50.0 * price
  {
    var x := LotShares(lots) as real;
    var raw := SharesRaw(w, turnover, price);
    SharesRawTimesPrice(w, turnover, price);
    assert (x - raw) * price == x * price - w * turnover;
    var gap := x - raw;
    assert -50.0 <= gap <= 50.0;
    assert (50.0 - gap) * price >= 0.0 && (gap + 50.0) * price >= 0.0;
    assert -50.0 * price <= gap * price <= 50.0 * price;
  }

  lemma AllTradableTail(inp: OrderInputs, weights: Dict<real>)
    requires |weights| > 0 && AllTradable(inp, weights)
    ensures AllTradable(inp, weights[1..])
  {
    assert forall i :: 1 <= i < |weights| ==> weights[i] == weights[1..][i - 1];
  }

  /** A tradable symbol's step uses its share of the turnover up to half a
      lot's price. */
  lemma StepSpentBound(inp: OrderInputs, sym: Symbol, w: real, step: Step)
    requires sym !in inp.suspended && sym in inp.prices && inp.prices[sym] > 0.0
    requires w == 0.0 || Abs(w) >= Eps
    requires GoalFor(inp, sym, w) == Ok(step)
    ensures -50.0 * inp.prices[sym] <= step.spent - w * inp.turnover <= 50.0 * inp.prices[sym]
  {
    if w != 0.0 {
      LotCostBound(step.lots, w, inp.turnover, inp.prices[sym]);
    }
  }

  /** Every tradable symbol gets a step. */
  lemma TradableStepsExist(inp: OrderInputs, weights: Dict<real>)
    requires AllTradable(inp, weights)
    ensures GoalsFor(inp, weights).Ok?
    ensures forall i :: 0 <= i < |weights| ==>
      GoalFor(inp, weights[i].0, weights[i].1) == Ok(GoalsFor(inp, weights).value[i])
  {
    forall i | 0 <= i < |weights|
      ensures GoalFor(inp, weights[i].0, weights[i].1).Ok?
    {
    }
  }

  /** Every step uses its symbol's share of the turnover up to half a lot's
      price. */
  ghost predicate StepsNearTarget(inp: OrderInputs, weights: Dict<real>, steps: seq<Step>)
    requires AllTradable(inp, weights)
  {
    && |steps| == |weights|
    && forall i :: 0 <= i < |steps| ==>
         -50.0 * inp.prices[weights[i].0] <= steps[i].spent - weights[i].1 * inp.turnover
           <= 50.0 * inp.prices[weights[i].0]
  }

  /** Per-step bounds add up to the bound on the totals. */
  lemma {:induction false} SumNearTarget(inp: OrderInputs, weights: Dict<real>, steps: seq<Step>)
    requires AllTradable(inp, weights)
    requires StepsNearTarget(inp, weights, steps)
    ensures -RoundingSlack(inp, weights)
      <= TotalSpent(steps) - TargetSpend(weights, inp.turnover)
      <= RoundingSlack(inp, weights)
  {
    if |weights| > 0 {
      AllTradableTail(inp, weights);
      assert StepsNearTarget(inp, weights[1..], steps[1..]) by {
        forall i | 0 <= i < |steps[1..]|
          ensures -50.0 * inp.prices[weights[1..][i].0] <= steps[1..][i].spent - weights[1..][i].1 * inp.turnover
                  <= 50.0 * inp.prices[weights[1..][i].0]
        {
          assert steps[1..][i] == steps[i + 1] && weights[1..][i] == weights[i + 1];
        }
      }
      SumNearTarget(inp, weights[1..], steps[1..]);
      assert TotalSpent(steps) == steps[0].spent + TotalSpent(steps[1..]);
      assert TargetSpend(weights, inp.turnover) == weights[0].1 * inp.turnover + TargetSpend(weights[1..], inp.turnover);
      assert RoundingSlack(inp, weights) == 50.0 * inp.prices[weights[0].0] + RoundingSlack(inp, weights[1..]);
    }
  }

  /** The cash used is the targeted spend up to the total rounding slack. */
  lemma SpentNearTarget(inp: OrderInputs, weights: Dict<real>)
    requires AllTradable(inp, weights)
    ensures GoalsFor(inp, weights).Ok?
    ensures -RoundingSlack(inp, weights)
      <= TotalSpent(GoalsFor(inp, weights).value) - TargetSpend(weights, inp.turnover)
      <= RoundingSlack(inp, weights)
  {
    TradableStepsExist(inp, weights);
    var steps := GoalsFor(inp, weights).value;
    StepsFromGoalForNearTarget(inp, weights, steps);
    SumNearTarget(inp, weights, steps);
  }

  /** Steps that `GoalFor` produced for tradable weights are each near their
      target. */
  lemma StepsFromGoalForNearTarget(inp: OrderInputs, weights: Dict<real>, steps: seq<Step>)
    requires AllTradable(inp, weights)
    requires |steps| == |weights|
    requires forall i :: 0 <= i < |weights| ==> GoalFor(inp, weights[i].0, weights[i].1) == Ok(steps[i])
    ensures StepsNearTarget(inp, weights, steps)
  {
    forall i | 0 <= i < |steps|
      ensures -50.0 * inp.prices[weights[i].0] <= steps[i].spent - weights[i].1 * inp.turnover
           <= 50.0 * inp.prices[weights[i].0]
    {
      StepSpentBound(inp, weights[i].0, weights[i].1, steps[i]);
    }
  }

  /** `TargetSpend` is the turnover times the weight sum. */
  lemma {:induction false} TargetSpendScales(weights: Dict<real>, turnover: real)
    ensures TargetSpend(weights, turnover) == turnover * WeightSum(weights)
  {
    if |weights| > 0 {
      TargetSpendScales(weights[1..], turnover);
      assert weights[0].1 * turnover + turnover * WeightSum(weights[1..])
          == turnover * (weights[0].1 + WeightSum(weights[1..]));
    }
  }

  function WeightSum(weights: Dict<real>): real
  {
    if |weights| == 0 then 0.0 else weights[0].1 + WeightSum(weights[1..])
  }

  /** When every symbol is tradable, the cash left over is what the weights
      leave unallocated, turnover * (1 - sum of weights), up to half a lot's
      price per symbol; weights summing to one leave about nothing. */
  lemma CashLeftNearUnallocated(weights: Dict<real>, turnover: real, prices: map<Symbol, real>,
                                algo: string, susp: seq<Symbol>, h: Holdings)
    requires algo in SupportedAlgos
    requires AllTradable(OrderInputs(turnover, prices, susp, h, InLots), weights)
    ensures var r := GenerateWeightsOrder(weights, turnover, prices, algo, Some(susp), h);
      var slack := RoundingSlack(OrderInputs(turnover, prices, susp, h, InLots), weights);
      && r.Ok?
      && -slack <= r.value.1 - turnover * (1.0 - WeightSum(weights)) <= slack
  {
    var inp := OrderInputs(turnover, prices, susp, h, InLots);
    SpentNearTarget(inp, weights);
    TargetSpendScales(weights, turnover);
  }

  /** Every suspended symbol's goal is its current size, so `goal_portfolio`
      sends no order for it. */
  lemma SuspendedGoalsAreMet(weights: Dict<real>, turnover: real, prices: map<Symbol, real>,
                             algo: string, susp: seq<Symbol>, h: Holdings, tradeDate: nat, i: nat)
    requires GenerateWeightsOrder(weights, turnover, prices, algo, Some(susp), h).Ok?
    requires i < |weights| && weights[i].0 in susp
    ensures var goals := GenerateWeightsOrder(weights, turnover, prices, algo, Some(susp), h).value.0;
      && goals[i].symbol == weights[i].0
      && DeltaOrder(goals[i], h, tradeDate).None?
  {
  }

  // ---------------------------------------------------------------------
  // Size units: lots as written, shares as intended

  /** The value of a goal list at the given prices, counting each size as
      shares. */
  function GoalValue(goals: seq<GoalPosition>, prices: map<Symbol, real>): real
    requires forall i :: 0 <= i < |goals| ==> goals[i].symbol in prices
  {
    if |goals| == 0 then 0.0
    else goals[0].size as real * prices[goals[0].symbol] + GoalValue(goals[1..], prices)
  }

  /** One tradable step uses its goal size times the price, times the
      number of goal units in a lot. */
  lemma StepValue(inp: OrderInputs, sym: Symbol, w: real, st: Step)
    requires sym !in inp.suspended && sym in inp.prices && inp.prices[sym] > 0.0
    requires w == 0.0 || Abs(w) >= Eps
    requires GoalFor(inp, sym, w) == Ok(st)
    ensures st.goal.symbol == sym
    ensures st.spent == SharesPerUnit(inp.unit) * (st.goal.size as real * inp.prices[sym])
  {
  }

  /** Every step's goal symbol has a price, and the step uses k times its
      goal's value. */
  ghost predicate StepsValued(k: real, steps: seq<Step>, prices: map<Symbol, real>)
  {
    forall i :: 0 <= i < |steps| ==>
      steps[i].goal.symbol in prices && steps[i].spent == k * (steps[i].goal.size as real * prices[steps[i].goal.symbol])
  }

  lemma {:induction false} SumValued(k: real, steps: seq<Step>, prices: map<Symbol, real>)
    requires StepsValued(k, steps, prices)
    ensures forall i :: 0 <= i < |Goals(steps)| ==> Goals(steps)[i].symbol in prices
    ensures TotalSpent(steps) == k * GoalValue(Goals(steps), prices)
  {
    if |steps| > 0 {
      var rest := steps[1..];
      assert StepsValued(k, rest, prices) by {
        forall i | 0 <= i < |rest| ensures rest[i] == steps[i + 1] { }
      }
      SumValued(k, rest, prices);
      assert Goals(steps)[1..] == Goals(rest);
      var v0 := steps[0].goal.size as real * prices[steps[0].goal.symbol];
      assert k * v0 + k * GoalValue(Goals(rest), prices) == k * (v0 + GoalValue(Goals(rest), prices));
    }
  }

  /** For tradable symbols, the cash a step uses is its goal size in shares
      times the price exactly when goals are counted in shares; as written
      it is a hundred times that. */
  lemma StepsValue(inp: OrderInputs, weights: Dict<real>)
    requires AllTradable(inp, weights)
    ensures GoalsFor(inp, weights).Ok?
    ensures var steps := GoalsFor(inp, weights).value;
      && (forall i :: 0 <= i < |Goals(steps)| ==> Goals(steps)[i].symbol in inp.prices)
      && TotalSpent(steps) == SharesPerUnit(inp.unit) * GoalValue(Goals(steps), inp.prices)
  {
    var k := SharesPerUnit(inp.unit);
    TradableStepsExist(inp, weights);
    var steps := GoalsFor(inp, weights).value;
    StepsFromGoalForValued(inp, weights, steps);
    SumValued(k, steps, inp.prices);
  }

  /** Steps that `GoalFor` produced for tradable weights each use their
      goal's value times the shares per goal unit. */
  lemma StepsFromGoalForValued(inp: OrderInputs, weights: Dict<real>, steps: seq<Step>)
    requires AllTradable(inp, weights)
    requires |steps| == |weights|
    requires forall i :: 0 <= i < |weights| ==> GoalFor(inp, weights[i].0, weights[i].1) == Ok(steps[i])
    ensures StepsValued(SharesPerUnit(inp.unit), steps, inp.prices)
  {
    forall i | 0 <= i < |steps|
      ensures steps[i].goal.symbol in inp.prices
      ensures steps[i].spent == SharesPerUnit(inp.unit) * (steps[i].goal.size as real * inp.prices[steps[i].goal.symbol])
    {
      StepValue(inp, weights[i].0, weights[i].1, steps[i]);
    }
  }

  /** With every goal in shares, the cash the method reports as used is
      exactly the value of the goals, so the orders `goal_portfolio` sends
      from an empty book cost what the turnover accounting says. */
  lemma ShareGoalsCostWhatTheyClaim(weights: Dict<real>, turnover: real, prices: map<Symbol, real>,
                                    algo: string, susp: seq<Symbol>, h: Holdings)
    requires algo in SupportedAlgos
    requires AllTradable(OrderInputs(turnover, prices, susp, h, InShares), weights)
    ensures var r := GenerateShareGoals(weights, turnover, prices, algo, Some(susp), h);
      && r.Ok?
      && (forall i :: 0 <= i < |r.value.0| ==> r.value.0[i].symbol in prices)
      && turnover - r.value.1 == GoalValue(r.value.0, prices)
  {
    var inp := OrderInputs(turnover, prices, susp, h, InShares);
    StepsValue(inp, weights);
    assert Goals(GoalsFor(inp, weights).value) == GenerateShareGoals(weights, turnover, prices, algo, Some(susp), h).value.0;
  }

  /** As written the same accounting is off by the lot size: the reported
      cash use is a hundred times the value of the goals. */
  lemma LotGoalsUnderstateCost(weights: Dict<real>, turnover: real, prices: map<Symbol, real>,
                               algo: string, susp: seq<Symbol>, h: Holdings)
    requires algo in SupportedAlgos
    requires AllTradable(OrderInputs(turnover, prices, susp, h, InLots), weights)
    ensures var r := GenerateWeightsOrder(weights, turnover, prices, algo, Some(susp), h);
      && r.Ok?
      && (forall i :: 0 <= i < |r.value.0| ==> r.value.0[i].symbol in prices)
      && turnover - r.value.1 == 100.0 * GoalValue(r.value.0, prices)
  {
    var inp := OrderInputs(turnover, prices, susp, h, InLots);
    StepsValue(inp, weights);
    assert Goals(GoalsFor(inp, weights).value) == GenerateWeightsOrder(weights, turnover, prices, algo, Some(susp), h).value.0;
  }

  /** A concrete case: all of a 100000 turnover on one symbol at price 10
      gives a goal of 100 (lots) with no cash left, so `goal_portfolio`
      would buy 100 shares for 1000 instead of 10000 shares. */
  lemma WholeTurnoverGoalIsInLots()
    ensures GenerateWeightsOrder([("A", 1.0)], 100000.0, map["A" := 10.0], "close", Some([]), map[])
         == Ok(([GoalPosition("A", 100)], 0.0))
    ensures GenerateShareGoals([("A", 1.0)], 100000.0, map["A" := 10.0], "close", Some([]), map[])
         == Ok(([GoalPosition("A", 10000)], 0.0))
  {
    assert SharesRaw(1.0, 100000.0, 10.0) / 100.0 == 100.0;
    assert Round(100.0) == 100;
    SingleSymbolExample(InLots, 100);
    SingleSymbolExample(InShares, 10000);
  }

  /** The whole turnover of 100000 on "A" at price 10: 100 lots, counted as
      a goal of 100 in lots or 10000 in shares. */
  lemma SingleSymbolExample(unit: SizeUnit, size: int)
    requires size == GoalSize(unit, 100)
    requires Round(SharesRaw(1.0, 100000.0, 10.0) / 100.0) == 100
    ensures Translate(OrderInputs(100000.0, map["A" := 10.0], [], map[], unit), [("A", 1.0)])
         == Ok(([GoalPosition("A", size)], 0.0))
  {
    var w: Dict<real> := [("A", 1.0)];
    var inp := OrderInputs(100000.0, map["A" := 10.0], [], map[], unit);
    var step := Step(GoalPosition("A", size), 100, 100000.0);
    assert w[0].0 == "A" && w[0].1 == 1.0;
    assert GoalsFor(inp, w[1..]) == Ok([]);
    assert GoalFor(inp, "A", 1.0) == Ok(step);
    assert GoalsFor(inp, w).Ok?;
    assert |GoalsFor(inp, w).value| == 1;
    assert GoalsFor(inp, w).value[0] == step;
    assert GoalsFor(inp, w).value == [step];
    assert Goals([step]) == [GoalPosition("A", size)];
    assert TotalSpent([step]) == 100000.0;
  }

  /** With the default `suspensions=None` any non-empty weights fail, while
      the intended reading goes ahead. */
  lemma DefaultSuspensionsFail()
    ensures GenerateWeightsOrder([("A", 1.0)], 100000.0, map["A" := 10.0], "close", None, map[]).Err?
    ensures GenerateShareGoals([("A", 1.0)], 100000.0, map["A" := 10.0], "close", None, map[]).Ok?
  {
    WholeTurnoverGoalIsInLots();
  }
}

=== FILE: weights.dfy ===
/** Weight construction of `AlphaStrategy`: the equal-weight and
    factor-value variants, the clean-up/selection/normalisation pipeline of
    `portfolio_construction`, parameter validation and the suspension
    re-weighting. */
module PortfolioWeights {
  import opened PyBase
  import opened Dicts

  /** 1e-8, the threshold below which weights count as all zero. */
  const Eps: real := 0.00000001

  /** A float that may be NaN. */
  datatype Num = Finite(v: real) | NaN

  predicate SameSign(a: real, b: real)
  {
    (a > 0.0 <==> b > 0.0) && (a < 0.0 <==> b < 0.0)
  }

  /** `{k: 0.0 if np.isnan(v) else v for k, v in d.items()}` */
  function ZeroNaN(d: Dict<Num>): (r: Dict<real>)
    ensures Keys(r) == Keys(d)
    ensures forall i :: 0 <= i < |d| ==> r[i].1 == (if d[i].1.NaN? then 0.0 else d[i].1.v)
  {
    seq(|d|, i requires 0 <= i < |d| => (d[i].0, if d[i].1.NaN? then 0.0 else d[i].1.v))
  }

  function Lift(d: Dict<real>): (r: Dict<Num>)
    ensures ZeroNaN(r) == d
  {
    var r := seq(|d|, i requires 0 <= i < |d| => (d[i].0, Finite(d[i].1)));
    assert ZeroNaN(r) == d;
    r
  }

  /** `{k: v if k in selected else 0.0 for k, v in d.items()}` when a stock
      selector is configured; the identity otherwise. */
  function SelectFilter(d: Dict<real>, selection: Option<set<Symbol>>): (r: Dict<real>)
    ensures Keys(r) == Keys(d)
    ensures forall i :: 0 <= i < |d| ==>
      r[i].1 == (if selection.Some? && d[i].0 !in selection.value then 0.0 else d[i].1)
  {
    match selection
    case None => d
    case Some(sel) => seq(|d|, i requires 0 <= i < |d| => (d[i].0, if d[i].0 in sel then d[i].1 else 0.0))
  }

  lemma QuotientSign(v: real, s: real)
    requires s > 0.0
    ensures SameSign(Quotient(v, s), v)
  {
    if v < 0.0 {
      assert v / s < 0.0;
    } else if v > 0.0 {
      assert v / s > 0.0;
    }
  }

  lemma QuotientMonotone(a: real, b: real, s: real)
    requires s > 0.0 && a <= b
    ensures Quotient(a, s) <= Quotient(b, s)
  {
    assert b / s - a / s == (b - a) / s;
  }

  /** Dividing by a positive number keeps every sign and the order of the values. */
  lemma DivideByPreserves(d: Dict<real>, s: real)
    requires s > 0.0
    ensures forall i :: 0 <= i < |d| ==> SameSign(DivideBy(d, s)[i].1, d[i].1)
    ensures forall i, j :: 0 <= i < |d| && 0 <= j < |d| && d[i].1 <= d[j].1 ==>
      DivideBy(d, s)[i].1 <= DivideBy(d, s)[j].1
  {
    var r := DivideBy(d, s);
    forall i | 0 <= i < |d| ensures SameSign(r[i].1, d[i].1) {
      QuotientSign(d[i].1, s);
    }
    forall i, j | 0 <= i < |d| && 0 <= j < |d| && d[i].1 <= d[j].1 ensures r[i].1 <= r[j].1 {
      QuotientMonotone(d[i].1, d[j].1, s);
    }
  }

  /** Divide every weight by the absolute sum when that sum exceeds `floor`. */
  function Rescale(d: Dict<real>, floor: real): (r: Dict<real>)
    requires floor >= 0.0
    ensures Keys(r) == Keys(d)
    ensures AbsSum(d) <= floor ==> r == d
    ensures AbsSum(d) > floor ==> AbsSum(r) == 1.0
    ensures AbsSum(d) > floor ==> forall i :: 0 <= i < |d| ==> r[i].1 == d[i].1 / AbsSum(d)
    ensures forall i :: 0 <= i < |d| ==> SameSign(r[i].1, d[i].1)
    ensures forall i, j :: 0 <= i < |d| && 0 <= j < |d| && d[i].1 <= d[j].1 ==> r[i].1 <= r[j].1
  {
    var s := AbsSum(d);
    if s > floor then
      AbsSumNormalised(d);
      DivideByPreserves(d, s);
      DivideBy(d, s)
    else d
  }

  /** The steps of `portfolio_construction` after the variant has run: NaN to
      zero, unselected symbols to zero, then normalisation by the absolute
      sum when it exceeds 1e-8. */
  function Finalize(raw: Dict<Num>, selection: Option<set<Symbol>>): (r: Dict<real>)
    ensures Keys(r) == Keys(raw)
    ensures AbsSum(r) == 1.0 || AbsSum(r) <= Eps
    ensures var clean := SelectFilter(ZeroNaN(raw), selection);
      && (AbsSum(clean) <= Eps ==> r == clean)
      && (AbsSum(clean) > Eps ==> AbsSum(r) == 1.0)
      && (AbsSum(clean) > Eps ==> forall i :: 0 <= i < |raw| ==> r[i].1 == clean[i].1 / AbsSum(clean))
    ensures forall i :: 0 <= i < |raw| ==>
      (raw[i].1.NaN? || (selection.Some? && raw[i].0 !in selection.value)) ==> r[i].1 == 0.0
    ensures forall i :: 0 <= i < |raw| ==>
      (raw[i].1.Finite? && (selection.None? || raw[i].0 in selection.value)) ==> SameSign(r[i].1, raw[i].1.v)
    ensures forall i, j ::
      (0 <= i < |raw| && 0 <= j < |raw| && raw[i].1 == raw[j].1 &&
       (selection.None? || (raw[i].0 in selection.value && raw[j].0 in selection.value))) ==>
      r[i].1 == r[j].1
  {
    var cleaned := ZeroNaN(raw);
    var selected := SelectFilter(cleaned, selection);
    Rescale(selected, Eps)
  }

  /** `equal_weight`: weight 1.0 for every symbol of the universe. */
  function EqualWeight(universe: seq<Symbol>): (r: Dict<real>)
    ensures Valid(r)
    ensures forall k :: k in Keys(r) <==> k in universe
    ensures forall i :: 0 <= i < |r| ==> r[i].1 == 1.0
  {
    var pairs := seq(|universe|, i requires 0 <= i < |universe| => (universe[i], 1.0));
    assert forall k :: k in universe ==> k in Keys(pairs) by {
      forall k | k in universe ensures k in Keys(pairs) {
        var i :| 0 <= i < |universe| && universe[i] == k;
        assert Keys(pairs)[i] == k;
      }
    }
    var r := FromPairs(pairs);
    assert forall i :: 0 <= i < |r| ==> r[i] in pairs;
    r
  }

  /** `np.min(w.values())` on a non-empty dict. */
  function MinValue(w: Dict<real>): (m: real)
    requires |w| > 0
    ensures forall i :: 0 <= i < |w| ==> m <= w[i].1
    ensures exists i :: 0 <= i < |w| && m == w[i].1
  {
    if |w| == 1 then w[0].1
    else
      var m := MinValue(w[1..]);
      assert forall i :: 1 <= i < |w| ==> w[i] == w[1..][i - 1];
      if w[0].1 <= m then w[0].1 else m
  }

  /** `long_only_weight_adjust`: when the smallest value is negative, add twice
      its magnitude to every value.  `np.min` of an empty dict raises. */
  function LongOnlyAdjust(w: Dict<real>): (r: Result<Dict<real>>)
    ensures r.Err? <==> |w| == 0
    ensures r.Err? ==> r.error.ValueError?
    ensures r.Ok? ==> Keys(r.value) == Keys(w)
    ensures r.Ok? ==> forall i, j :: 0 <= i < |w| && 0 <= j < |w| ==>
      r.value[i].1 - r.value[j].1 == w[i].1 - w[j].1
    ensures r.Ok? && (forall i :: 0 <= i < |w| ==> w[i].1 >= 0.0) ==> r.value == w
    ensures r.Ok? && (exists i :: 0 <= i < |w| && w[i].1 < 0.0) ==>
      forall i :: 0 <= i < |w| ==> r.value[i].1 > 0.0
    ensures |w| > 0 && MinValue(w) < 0.0 ==>
      r.Ok? && forall i :: 0 <= i < |w| ==> r.value[i].1 == w[i].1 - 2.0 * MinValue(w)
  {
    if |w| == 0 then Err(ValueError("zero-size array to reduction operation minimum which has no identity"))
    else
      var m := MinValue(w);
      if m < 0.0 then
        var delta := 2.0 * Abs(m);
        Ok(seq(|w|, i requires 0 <= i < |w| => (w[i].0, w[i].1 + delta)))
      else Ok(w)
  }

  /** `factor_value_weight`: the revenue model's forecast with NaN as zero,
      made long-only by `LongOnlyAdjust`. */
  function FactorValueWeight(forecast: Dict<Num>): (r: Result<Dict<real>>)
    ensures r.Err? <==> |forecast| == 0
    ensures r.Ok? ==> Keys(r.value) == Keys(forecast)
    ensures r.Ok? ==> forall i :: 0 <= i < |forecast| ==> r.value[i].1 >= 0.0
    ensures r.Ok? && (forall i :: 0 <= i < |forecast| ==> forecast[i].1.NaN? || forecast[i].1.v >= 0.0) ==>
      r.value == ZeroNaN(forecast)
    ensures |forecast| > 0 ==> var z := ZeroNaN(forecast); var m := MinValue(z);
      r.Ok? && forall i :: 0 <= i < |forecast| ==>
        r.value[i].1 == (if m < 0.0 then z[i].1 - 2.0 * m else z[i].1)
  {
    var w := ZeroNaN(forecast);
    assert (exists i :: 0 <= i < |w| && w[i].1 < 0.0) || (forall i :: 0 <= i < |w| ==> w[i].1 >= 0.0);
    LongOnlyAdjust(w)
  }

  /** Names of the portfolio-construction methods `_validate_parameters` knows. */
  const OptimizerMethods: set<string> := {"mc", "quad_opt"}

  const NoModelMsg := "At least one model of revenue, cost and risk must be provided."
  const NoRevenueMsg := "revenue_model must be provided when pc_method = 'factor_value_weight'"

  /** `_validate_parameters`: None when the configuration is accepted. */
  function ValidateParameters(pcMethod: string, hasRevenue: bool, hasCost: bool, hasRisk: bool): (r: Option<PyError>)
    ensures r.None? <==>
      || (pcMethod in OptimizerMethods && (hasRevenue || hasCost || hasRisk))
      || (pcMethod == "factor_value_weight" && hasRevenue)
      || pcMethod == "equal_weight"
    ensures r.Some? ==>
      (r.value.NotImplementedError? <==>
        pcMethod !in OptimizerMethods && pcMethod != "factor_value_weight" && pcMethod != "equal_weight")
    ensures r.Some? && !r.value.NotImplementedError? ==> r.value.ValueError?
    ensures pcMethod in OptimizerMethods && !hasRevenue && !hasCost && !hasRisk ==>
      r == Some(ValueError(NoModelMsg))
    ensures pcMethod == "factor_value_weight" && !hasRevenue ==> r == Some(ValueError(NoRevenueMsg))
    ensures r.Some? && r.value.NotImplementedError? ==> r.value.msg == "pc_method = " + pcMethod
  {
    if pcMethod in OptimizerMethods then
      assert pcMethod != "factor_value_weight" && pcMethod != "equal_weight" by {
        assert |pcMethod| < 10 < |"equal_weight"| < |"factor_value_weight"|;
      }
      if !hasRevenue && !hasCost && !hasRisk then
        Some(ValueError(NoModelMsg))
      else None
    else if pcMethod == "factor_value_weight" then
      assert pcMethod != "equal_weight";
      if !hasRevenue then Some(ValueError(NoRevenueMsg))
      else None
    else if pcMethod == "equal_weight" then None
    else Some(NotImplementedError("pc_method = " + pcMethod))
  }

  /** `re_weight_suspension(suspensions)` as written.  The comprehension tests
      the weight value `w` (a float) for membership in the list of suspended
      symbols (strings); that test never holds, so no weight is zeroed and
      only the renormalisation takes effect. */
  function ReWeightSuspension(weights: Dict<real>, suspensions: Option<seq<Symbol>>,
                              universe: seq<Symbol>): (r: Result<Dict<real>>)
    ensures (suspensions.None? || |suspensions.value| == 0) ==> r == Ok(weights)
    ensures suspensions.Some? && |suspensions.value| > 0 ==>
      (r.Err? <==> |suspensions.value| == |universe|)
    ensures r.Err? ==> r.error == ValueError("All suspended")
    ensures r.Ok? ==> Keys(r.value) == Keys(weights)
    ensures r.Ok? && suspensions.Some? && |suspensions.value| > 0 ==>
      (AbsSum(r.value) == 1.0 || (AbsSum(r.value) == 0.0 && r.value == weights))
    ensures r.Ok? && suspensions.Some? && |suspensions.value| > 0 && AbsSum(weights) > 0.0 ==>
      forall i :: 0 <= i < |weights| ==> r.value[i].1 == weights[i].1 / AbsSum(weights)
    ensures r.Ok? ==> forall i :: 0 <= i < |weights| ==> SameSign(r.value[i].1, weights[i].1)
  {
    if suspensions.None? || |suspensions.value| == 0 then Ok(weights)
    else if |suspensions.value| == |universe| then Err(ValueError("All suspended"))
    else Ok(Rescale(weights, 0.0))
  }

  /** Weight 0 for every suspended symbol, the other weights unchanged. */
  function ZeroSuspended(weights: Dict<real>, susp: seq<Symbol>): (r: Dict<real>)
    ensures Keys(r) == Keys(weights)
    ensures forall i :: 0 <= i < |weights| ==>
      r[i].1 == (if weights[i].0 in susp then 0.0 else weights[i].1)
  {
    seq(|weights|, i requires 0 <= i < |weights| =>
      (weights[i].0, if weights[i].0 in susp then 0.0 else weights[i].1))
  }

  /** The zeroing the method evidently intends: suspended symbols get weight 0
      before the renormalisation. */
  function ReWeightSuspensionIntended(weights: Dict<real>, suspensions: Option<seq<Symbol>>,
                                      universe: seq<Symbol>): (r: Result<Dict<real>>)
    ensures (suspensions.None? || |suspensions.value| == 0) ==> r == Ok(weights)
    ensures suspensions.Some? && |suspensions.value| > 0 ==>
      (r.Err? <==> |suspensions.value| == |universe|)
    ensures r.Ok? ==> Keys(r.value) == Keys(weights)
    ensures r.Ok? && suspensions.Some? ==> forall i :: 0 <= i < |weights| ==>
      (weights[i].0 in suspensions.value ==> r.value[i].1 == 0.0) &&
      (weights[i].0 !in suspensions.value ==> SameSign(r.value[i].1, weights[i].1))
    ensures r.Ok? && suspensions.Some? && |suspensions.value| > 0 ==>
      AbsSum(r.value) == 1.0 || forall i :: 0 <= i < |weights| ==> r.value[i].1 == 0.0
    ensures r.Ok? && suspensions.Some? && |suspensions.value| > 0 ==>
      var live := AbsSum(ZeroSuspended(weights, suspensions.value));
      live > 0.0 ==> forall i :: 0 <= i < |weights| && weights[i].0 !in suspensions.value ==>
        r.value[i].1 == weights[i].1 / live
  {
    if suspensions.None? || |suspensions.value| == 0 then Ok(weights)
    else if |suspensions.value| == |universe| then Err(ValueError("All suspended"))
    else
      var zeroed := ZeroSuspended(weights, suspensions.value);
      AbsSumZero(Rescale(zeroed, 0.0));
      Ok(Rescale(zeroed, 0.0))
  }

  /** A concrete case of the difference: with "A" suspended in a two-symbol
      universe, the method as written keeps A's weight of 0.5, while the
      intended version moves all weight to "B". */
  lemma SuspendedWeightSurvives()
    ensures ReWeightSuspension([("A", 0.5), ("B", 0.5)], Some(["A"]), ["A", "B"])
         == Ok([("A", 0.5), ("B", 0.5)])
    ensures ReWeightSuspensionIntended([("A", 0.5), ("B", 0.5)], Some(["A"]), ["A", "B"])
         == Ok([("A", 0.0), ("B", 1.0)])
  {
    var w: Dict<real> := [("A", 0.5), ("B", 0.5)];
    assert AbsSum(w) == 1.0;
    assert Quotient(0.5, 1.0) == 0.5;
    assert DivideBy(w, 1.0) == w;
    var zeroed: Dict<real> := [("A", 0.0), ("B", 0.5)];
    assert "A" in ["A"] && "B" !in ["A"];
    assert zeroed == ZeroSuspended(w, ["A"]);
    assert AbsSum(zeroed) == 0.5;
    assert Quotient(0.0, 0.5) == 0.0 && Quotient(0.5, 0.5) == 1.0;
    assert DivideBy(zeroed, 0.5) == [("A", 0.0), ("B", 1.0)];
  }
}
